=== FILE: README.md ===
# dempng-worker in Dafny

A model of the image core of dempng-worker. This service worker serves
elevation tiles, stored as "dempng" PNGs, and derives new tiles from
them. A dempng pixel packs a signed 24-bit elevation, in centimetres, into
its red, green and blue channels. The pattern `0x800000` (`#800000`) is
reserved for "no data".

The model covers the following parts of the code:

- **Clip** (`lib/util.js` `clip`). Clamping into the interval between two
  bounds, given in either order.
- **Codec**. The 24-bit decoder used by `asDEM` and `elevation`, with its
  sign-selected correction table. Also the `mapbox` transform, which
  re-encodes every pixel in the Terrain-RGB layout (height =
  -10000 m + 0.1 m × value). This includes the 32-bit mask-and-shift
  byte extraction.
- **Colors** (`parseColor`). Parsing 3, 4, 6 or 8 lower-case hex digits
  into an `[r, g, b, a]` array.
- **Ramp** (`parseColors`). Dash-separated colour stops, spread evenly
  over the ticks `255 i / (N - 1)`, expanded into a 256-entry table by
  linear interpolation. The module holds two things:
  - the intended table (`ParseColors`);
  - the loop as written (`ParseColorsAsWritten`), together with the two
    inputs on which they part (see Findings).

  `lib/util.js` and `lib/colors.js` define these two functions
  identically, so one model serves both files.
- **Translate** (`translate`). The address of a neighbouring tile: strip
  the query, match `/<z>/<x>/<y>.png`, and shift x and y.
- **Raster** (the `DEM` class). A row-major raster with `get`, and the 3x3
  interior walks `convolve` (weighted sum) and `convolveFn` (any cell
  function). No-data propagates through the sum the way NaN does, even
  under a zero weight.
- **Assembler** (`asDEM`), covering these steps:
  1. the nine neighbour requests in row-major order of their offsets;
  2. the padded canvas filled with `#800000`;
  3. the opaque placement of the nine tiles;
  4. the RGBA buffer;
  5. the decode loop, with its zoom-dependent unit `500 × 2^(15 - z)`.

  Fetching is replaced by the nine bitmaps as inputs. A tile whose
  response is not ok is the 256×256 fill-coloured error image.
- **Transforms** (`lib/main.js`):
  - `elevation`, `slope`, `curvature` and `hillshade`: an index into the
    ramp from the clipped angle or height, or the fallback colour for
    no-data;
  - `contour`: the band-change cell function, then colour or fallback;
  - the parameter defaults.

  A pixel is modelled as a `Paint`:
  - `Fallback` for a no-data pixel;
  - `Entry(i)` for ramp index `i`;
  - `Undefined` where the index is NaN and `d.set(colors[NaN])` throws.

  Numbers are exact reals, and no-data is a separate constructor of
  `Num`. The trigonometry that turns derivatives into angles is a
  function-valued parameter:
  - `180 atan(hypot) / π` for slope;
  - `180 atan(c) / π` for curvature;
  - the `acos` of the normal against the light vector for hillshade.

  So are the zoom, the padding and the normalisation switch.

The worker's request handler (`dempng-worker.js:27-28`) passes the
transforms a URL whose query has already been removed. So in the deployed
worker every transform runs with its default parameters. The model keeps
the parameters, and it proves that the defaults are well formed and that
every pixel is written under them (`Default*Renders`).

Two behaviours of the code are easy to miss:

- The `mapbox` re-encoding is not an unsigned 24-bit value for every
  source. Below -10000 m the value `floor(0.1 src + 100000)` is negative,
  and the masks then take the low 24 bits of its two's-complement image
  (`Codec.MaskedBytesAreLow24`, `Codec.MapboxEncodeExact`).
- Some failures are fatal rather than substituted:
  - a ramp piece of 5, 7 or 9+ digits parses to `null`, and the loop of
    `parseColors` throws as soon as a non-empty segment reads it. This is
    proved for a two-piece text whose first piece is the bad one (see
    Findings). With 257 or more pieces a segment may contain no integer
    position, so a bad piece between two such segments is never read;
  - a ramp parameter whose bad piece is read therefore fails the
    transform instead of falling back to the default ramp
    (`Transforms.RampParamAsWritten`);
  - equal `low` and `high` give a NaN index whose write throws
    (`Paint.Undefined`).

## Model

| member | source | states |
|---|---|---|
| Clip.Clip | lib/util.js:8-13 | The result lies between the smaller and the larger bound, whichever order they are given in. A value inside the interval is kept. A value below it becomes the lower bound, and one above becomes the upper bound. |
| Codec.Decode | lib/util.js:176-177 | Decoding gives no-data exactly on the pattern 0x800000. Otherwise it gives the two's-complement reading of the 24 packed bits, which lies within ±0x7FFFFF. |
| Codec.DecodeBytesRoundTrip | lib/util.js:176-177 | Every integer in ±0x7FFFFF, stored as the three bytes of its low 24 bits, decodes back to itself. |
| Codec.MapboxSource | lib/main.js:7-8 | The value `mapbox` re-encodes equals the decoded elevation when that is defined, and is 0 on the no-data pattern. |
| Codec.TerrainValue | lib/main.js:9 | `floor(0.1 src + 100000)` is the source in whole decimetres, rounded down, plus the offset 100000. |
| Codec.MaskedBytesAreLow24 | lib/main.js:10 | The three masked and shifted bytes pack the value modulo 2^24, for negative values too. |
| Codec.MapboxEncode | lib/main.js:9-10 | The bytes written pack the Terrain-RGB value modulo 2^24. |
| Codec.MapboxEncodeIsTerrainRgb | lib/main.js:7-10 | For a source of at least -10000 m, the Terrain-RGB reading of the written bytes is the source truncated down to a whole decimetre. |
| Codec.MapboxPixel | lib/main.js:7-10 | Re-encoding a pixel keeps its alpha and packs the Terrain-RGB value of its decoded elevation into red, green and blue. |
| Codec.MapboxPixelMeaning | lib/main.js:6-11 | A defined pixel of at least -10000 m re-encodes to its elevation truncated to decimetres. Lower ones wrap modulo 2^24 and are not covered. A no-data pixel is not special-cased and becomes 0x01 0x86 0xA0, the code for height 0. |
| Codec.MapboxEncodeExact | lib/main.js:9-10 | Within ±0x7FFFFF, the packed bytes equal the Terrain-RGB value exactly when the source is at least -10000 m. |
| Codec.Mapbox | lib/main.js:3-13 | The transform rewrites every pixel of the buffer. Each keeps its alpha, and its red, green and blue pack the Terrain-RGB value of the pixel's own decoded elevation, modulo 2^24. |
| Clip.ClipSymmetric | lib/util.js:9 | Swapping the bounds does not change the result. |
| Clip.ClipIdempotent | lib/util.js:9 | Clipping a clipped value again changes nothing. |
| Colors.ParseColor | lib/util.js:15-29 | A text parses exactly when it is lower-case hex of length 3, 4, 6 or 8. The result always has four channels in 0..255. Short forms scale each digit by 0x11, and long forms read digit pairs. The forms without alpha are opaque. |
| Colors.ParseFormatRoundTrip | lib/colors.js:11-12 | Every RGBA colour is parsed back from its eight-digit spelling. |
| Colors.ShortFormIsDoubled | lib/colors.js:5-10 | A three- or four-digit colour means the same as its digits written twice ("abc" is "aabbcc"), both when it parses and when it does not. |
| Ramp.Split | lib/util.js:35 | The pieces contain no separator, there is at least one, and joining them back gives the text. |
| Ramp.SplitJoin | lib/util.js:35 | Splitting undoes joining pieces that do not contain the separator. |
| Ramp.EvenStopsSpan | lib/util.js:37 | The ticks `255 i / (N - 1)` start at 0, end at 255 and strictly increase. |
| Ramp.Frac | lib/util.js:46 | For a position strictly above the left tick and at most the right one, the interpolation fraction lies in (0, 1]. It is 1 exactly at the right tick. |
| Ramp.Mix | lib/util.js:47 | For a fraction in [0, 1], every mixed channel lies between the two stops' channels, so a mix of colours is a colour. At fraction 1 the mix is the right stop. |
| Ramp.Table | lib/util.js:39-50 | The corrected loop (each segment starting strictly above its left tick) builds 256 entries for stops from tick 0 to tick 255, the first being the first stop's colour. The loop as written can build more (see Findings). |
| Ramp.SegmentsLength | lib/util.js:42-49 | The inner loops from stop k onwards emit one entry for each integer position above its tick up to 255. |
| Ramp.TableEntries | lib/util.js:39-50 | In the corrected loop, for any stops from tick 0 to tick 255 the table has exactly 256 colours, and its first and last entries are the first and last stops. Every other entry is the mix of the two stops whose ticks bracket its index, so each channel lies between theirs. |
| Ramp.EvenTableIsReference | lib/util.js:37-50 | The table built by the corrected loop equals, at every index, the reference ramp defined without a loop. |
| Ramp.RampOf | lib/util.js:33-37 | In the intended reading, a ramp exists exactly when the text has the dashed shape and every piece parses. It then holds 256 colours, from the first piece's colour to the last piece's. |
| Ramp.ParseColors | lib/util.js:31-51 | The intended `parseColors` returns a table exactly when the text has the dashed shape and every piece is a colour. The table then holds 256 colours. The code as written is `Ramp.ParseColorsAsWritten`. |
| Ramp.ParseColorsIsReference | lib/util.js:31-51 | Under the intended reading, a well-formed ramp text yields the reference entry of its colours at every index. |
| Ramp.RampOfTwo | lib/colors.js:16-36 | Two colours of at least three digits joined by a dash make a ramp from the first to the second. |
| Ramp.DefaultRampsParse | lib/main.js:16-116 | The four default ramps parse and run from their first colour to their second. |
| Ramp.GreyRampMidpoint | lib/main.js:16 | The default black-to-white ramp is mid grey (128) at index 128. |
| Ramp.ParseColorsAsWritten | lib/util.js:31-51 | As written, `parseColors` returns `null` exactly when the text lacks the dashed shape. It throws only when some piece is not a colour. |
| Ramp.AsWrittenAgreesOffIntegers | lib/util.js:42-49 | When no interior tick is an integer and every colour is present, the loop as written emits exactly the intended segments. |
| Ramp.AsWrittenAgreesOnTwoStops | lib/util.js:36-50 | With two stops, as in every default ramp, the loop as written builds the intended table. |
| Ramp.AsWrittenRejectedTokenThrows | lib/util.js:36 | In a two-piece text, a first piece that passes the shape test but is not a colour makes the function as written throw. The intended check rejects the text. |
| Ramp.FiveDigitPieceThrows | lib/colors.js:21 | "fffff-000" throws as written and is rejected as intended. |
| Ramp.AsWrittenIntegerTicksRepeat | lib/util.js:45 | With four stops, as written, the integer ticks 85 and 170 are emitted twice. The table then has 258 entries, and entry 255 is 83/85 of the way from the third colour to the fourth. The intended table ends on the fourth colour. |
| Ramp.AsWrittenBlackWhiteRamp | lib/colors.js:30 | For "000-fff-000-fff", entry 255 as written is grey 249 of 258 entries. The intended table ends on white. |
| Translate.StripQuery | lib/util.js:2 | The result is a prefix of the text. Anything cut off starts at a `?` or `#` and holds no line break. |
| Translate.StripQueryOf | lib/util.js:2 | Text without `?` and `#` is kept whole, and a query or fragment after it is dropped. |
| Translate.MatchTile | lib/util.js:3 | A match has a non-empty base without a line break, and non-empty runs of decimal digits for x and y. |
| Translate.MatchTileSound | lib/util.js:3 | A match spells out exactly the text it was taken from. |
| Translate.MatchTileComplete | lib/util.js:3 | Every well-formed tile address is matched, with its own base and digits. |
| Translate.ParseNatToString | lib/util.js:5 | `parseInt` reads back the decimal spelling that the template writes. |
| Translate.Translate | lib/util.js:1-6 | `translate` fails exactly when the text, query removed, does not match the tile pattern. Otherwise it keeps the matched base. |
| Translate.TranslateDefined | lib/util.js:2-4 | `translate` succeeds exactly when the text, query and fragment removed, spells a well-formed tile address. |
| Translate.TranslateTile | lib/util.js:1-6 | A tile address, with any query or fragment, moves to the same base at `x + dx`, `y + dy`. |
| Translate.TranslateCompose | lib/util.js:5 | Moving by one pair of offsets and then another is moving by their sum, while the coordinates stay non-negative. |
| Translate.TranslateBack | lib/util.js:1-6 | Moving to a neighbour and back lands on the original tile. |
| Raster.GetNeighbour | lib/util.js:141-143 | From an inner cell, `get` reaches the cell at the given column and row offsets. |
| Raster.WindowCells | lib/util.js:123-135 | Entry k of the neighbourhood array is the cell k % 3 - 1 across and k / 3 - 1 down from the centre. |
| Raster.Interior | lib/util.js:116-140 | The result is (width - 2) by (height - 2), with one cell for each inner cell. It is empty when there is no interior. |
| Raster.InteriorCell | lib/util.js:121-138 | Output cell (x, y) is the cell function of the neighbourhood centred on input cell (x + 1, y + 1). |
| Raster.ConvolveFn | lib/util.js:116-140 | The two nested loops push exactly the row-major interior. |
| Raster.WeightedSum | lib/util.js:101-111 | The weighted sum is no-data exactly when some neighbour is no-data, whatever its weight. |
| Raster.WeightedSumIsDot | lib/util.js:101-111 | With every neighbour defined, the sum is the dot product of the neighbourhood with the kernel. |
| Raster.ConvolutionNoData | lib/util.js:93-115 | A convolved cell is no-data exactly when some input cell of its 3x3 block is. |
| Raster.Convolve | lib/util.js:93-115 | The loops compute the weighted sum over the interior neighbourhoods, row by row. |
| Assembler.BlankIsNoData | lib/util.js:53-57 | Every pixel of the error image, and of the blank canvas, is the fill colour and decodes to no-data. |
| Assembler.SlotOffset | lib/util.js:164 | Slot `dx + 1 + (dy + 1) * 3` is n exactly when the offsets are n % 3 - 1 and n / 3 - 1. |
| Assembler.NeighbourUrls | lib/util.js:148-153 | There are nine requests, and slot n holds the tile n % 3 - 1 across and n / 3 - 1 down. In particular the drawing loop's slot for (dx, dy) holds the tile at those offsets. |
| Assembler.DrawCell | lib/util.js:165 | Drawing an opaque tile replaces exactly the canvas pixels it covers and keeps the others. |
| Assembler.Painted | lib/util.js:157-167 | The canvas stays a valid square of side w + 2p through all nine draws. |
| Assembler.PaintCanvas | lib/util.js:155-167 | The drawing loop produces the canvas on which all nine tiles have been placed, each at its own slot. |
| Assembler.CoversSlot | lib/util.js:164-165 | A tile drawn at its slot covers a canvas pixel exactly when the pixel's tile offsets name that slot. Its pixel there is the remainder position. |
| Assembler.PaintedCell | lib/util.js:157-167 | For nine square tiles of one width, after the draws, a canvas pixel shows the pixel of the one tile whose slot covers it, and the fill where no drawn slot does. |
| Assembler.UnitPerZoom | lib/util.js:173 | The unit is 500 at zoom 15 and halves with every zoom level in. It is 1 without normalisation. |
| Assembler.Flatten | lib/util.js:169-170 | The buffer holds four bytes per pixel, r, g, b, a in pixel order. |
| Assembler.DecodeBuffer | lib/util.js:174-179 | Sample k is the decoded bytes 4k..4k+2 divided by the unit. Alpha is ignored. |
| Assembler.AsDem | lib/util.js:146-182 | The raster is valid and square, with the side of the first tile plus twice the padding. |
| Assembler.AssembleDem | lib/util.js:146-182 | Painting, reading back and decoding give the raster `asDEM` describes. |
| Assembler.AsDemCell | lib/util.js:157-179 | For nine square tiles of one width, a sample under a tile is that tile's decoded pixel over the unit. Any other sample is no-data. |
| Assembler.AsDemCentre | lib/util.js:165-178 | For nine square tiles of one width, the centre tile's pixel (i, j) becomes the sample at (i + p, j + p). |
| Assembler.PaddingOneCovered | lib/util.js:147-165 | With the default padding of 1, every canvas pixel lies in the 3x3 block of tile slots. |
| Assembler.ConvolvedIsOneTile | lib/util.js:147-156 | With the default padding of 1, convolving the assembled raster gives a valid raster exactly one tile wide and high. |
| Assembler.ErrorTileGivesNoData | lib/util.js:53-57 | In a set of nine square tiles of one width, samples under a blank tile of that width are no-data. For 256-pixel tiles that blank tile is the error image that replaces a response that was not ok. |
| Transforms.KernelsOnPlane | lib/main.js:46-72 | On a plane, the north-south and west-east kernels of `slope` (and of `hillshade`) give twice the per-cell gradient, and the curvature kernel gives 0. |
| Transforms.Resolve | lib/main.js:57 | A fallback pixel gets the fallback colour. An index writes exactly when it is inside the table. A NaN index never writes. |
| Transforms.Render | lib/main.js:24-33 | An image is produced exactly when every pixel's write succeeds. Each pixel then holds its resolved colour. |
| Transforms.RenderInRamp | lib/main.js:50-59 | With a 256-entry table every fallback-or-in-range pixel is written, the fallback ones with exactly the fallback colour. |
| Transforms.DegreeIndex | lib/main.js:55-56 | An index exists exactly when low differs from high. It lies in 0..255 and is 255 exactly when the clipped angle equals high. |
| Transforms.DegreeIndexMonotone | lib/main.js:55-56 | A larger angle never gets a lower index when low < high, and never a higher one when the bounds are reversed. |
| Transforms.ShadeIndexIsDegreeIndex | lib/main.js:142-143 | The extra clip of `hillshade` never changes the index. |
| Transforms.ElevationIndex | lib/main.js:31 | The index lies in 0..255. It is missing exactly when low == high == altitude. For low < high, it is 0 at or below low and 255 at or above high. |
| Transforms.ElevationIndexMonotone | lib/main.js:31 | For low < high, a higher altitude never gets a lower index. |
| Transforms.ElevationIndexLinear | lib/main.js:31 | For low <= altitude < high, the index is `255 (alt - low) / (high - low)` rounded down. |
| Transforms.ElevationPaint | lib/main.js:25-32 | A pixel gets the fallback exactly when it decodes to no-data. Otherwise it gets an index in 0..255, or no write only when low == high. |
| Transforms.Elevation | lib/main.js:24-34 | There is one paint per pixel, fallback exactly on no-data, and all are in range when the bounds differ. |
| Transforms.ElevationPaintDefined | lib/main.js:30-31 | For low < high, a defined pixel is painted 0 at or below low, 255 at or above high, and at the linear index of `src * 0.01 * gain` in between. |
| Transforms.SlopePaint | lib/main.js:51-57 | The fallback appears exactly when a derivative is no-data. A NaN index occurs exactly when the derivatives are defined and low == high. Otherwise the index is in 0..255. |
| Transforms.CurvaturePaint | lib/main.js:76-82 | The fallback appears exactly on a no-data curvature. A NaN index occurs exactly when low == high. Otherwise the index is in 0..255. |
| Transforms.ShadePaint | lib/main.js:134-144 | The fallback appears exactly when a derivative is no-data. A NaN index occurs exactly when low == high. Otherwise the index is in 0..255. |
| Transforms.SlopeImage | lib/main.js:46-59 | There is one paint per interior cell, all in range when the bounds differ. |
| Transforms.CurvatureImage | lib/main.js:72-84 | There is one paint per interior cell, all in range when the bounds differ. |
| Transforms.ShadeImage | lib/main.js:128-146 | There is one paint per interior cell, all in range when the bounds differ. |
| Transforms.SlopeFallbackWhere | lib/main.js:46-53 | Slope output (x, y) is the fallback exactly when the 3x3 input block around it holds no-data. |
| Transforms.CurvatureFallbackWhere | lib/main.js:72-78 | Curvature output (x, y) is the fallback exactly when the 3x3 input block around it holds no-data. |
| Transforms.ShadeFallbackWhere | lib/main.js:128-137 | Hillshade output (x, y) is the fallback exactly when the 3x3 input block around it holds no-data. |
| Transforms.Band | lib/main.js:95-97 | A band is NaN exactly for a no-data sample, or for a zero sample over a zero interval. For a non-zero interval it is the rounded-down quotient. |
| Transforms.ContourCell | lib/main.js:94-101 | The cell value is 0 or 255. It is 0 exactly when the centre is no-data, or when east and south are defined and in the centre's band. |
| Transforms.ContourCellLocal | lib/main.js:94-98 | The cell value depends only on the centre, east and south samples of the neighbourhood. |
| Transforms.BandsDifferIffStraddles | lib/main.js:95-99 | Two defined samples fall in different bands exactly when a contour level `k * interval` lies between them. |
| Transforms.Contour | lib/main.js:103-110 | The contour image has one pixel per interior cell of the raster. |
| Transforms.ContourCellZeroInterval | lib/main.js:95-99 | With an interval of 0, a cell is 0 exactly when the centre is no-data or 0, or when centre, east and south are all defined and all positive or all negative. |
| Transforms.ContourPixel | lib/main.js:94-110 | Output (x, y) is the line colour exactly when input cell (x + 1, y + 1) is defined and its east or south neighbour is no-data or across a contour level. Every other pixel is the fallback. |
| Transforms.RampParam | lib/main.js:16 | In the intended reading, the ramp parameter yields a table exactly when the parameter or the default parses, and then 256 colours. |
| Transforms.RampParamUsable | lib/main.js:16 | With a well-formed default, the ramp parameter always yields 256 colours, and an unusable parameter selects the default. |
| Transforms.RampParamAsWritten | lib/main.js:16 | As written, the parameter is `null` only when neither text has the dashed shape. It throws only when one of the texts has a piece that is not a colour. |
| Transforms.RampParamAsWrittenOnTwoStops | lib/main.js:16 | For two-stop texts the parameter as written selects the intended table. |
| Transforms.FiveDigitRampParamFails | lib/main.js:16 | The ramp parameter "fffff-000" falls back to the default as intended, but fails the transform as written. |
| Transforms.ColorParam | lib/main.js:90-91 | The colour parameter yields a colour exactly when the parameter or the default parses. |
| Transforms.ColorParamUsable | lib/main.js:90-91 | With a well-formed default, the colour parameter always yields a colour, and an unusable parameter selects the default. |
| Transforms.DefaultColors | lib/main.js:90-91 | The default fallback is transparent black, and the default contour colour is opaque white. |
| Transforms.DefaultElevationRenders | lib/main.js:16-20 | Under the default parameters every `elevation` pixel is written. |
| Transforms.DefaultSlopeRenders | lib/main.js:40-44 | Under the default parameters every `slope` pixel is written. |
| Transforms.DefaultCurvatureRenders | lib/main.js:66-70 | Under the default parameters every `curvature` pixel is written. |
| Transforms.DefaultShadeRenders | lib/main.js:116-120 | Under the default parameters every `hillshade` pixel is written. |

## Left out

- Fetching, the bitmap cache and `createImageBitmap` (`asBitmap`,
  `lib/util.js:60-68`) are I/O. The model takes the nine decoded bitmaps
  as inputs, and the error image stands in for a response that is not ok
  (`lib/util.js:64`). A fetch that rejects, or a `createImageBitmap` that
  fails (`lib/util.js:63`, `65`), rejects `Promise.all`
  (`lib/util.js:154`) and with it the whole of `asDEM`. That failure is
  not modelled.
- `asImageData`, `asResponse`, `OffscreenCanvas` and PNG encoding are
  I/O. A transform's result is the pixel sequence it would write.
- Promises and `Promise.all` are concurrency. The requests are modelled as
  the ordered list of addresses they fetch.
- Canvas compositing is modelled only as opaque overwrite. Tiles with
  partial alpha, and colour management, are out of scope for a dempng
  source.
- Floating point: all arithmetic is on exact reals. Rounding of
  `0.1 * src`, of `i / (N - 1)`, of the interpolation and of the unit
  division is not modelled. `Math.ceil(tick + Number.MIN_VALUE)` is
  modelled explicitly (`Ramp.IeeeStart`). The interpolation
  `floor(l (1 - t) + r t)` (`lib/util.js:47`) also changes results in
  doubles: the sum can fall just below an integer. In the default
  black-to-white ramp, entry 43 has alpha 254.
- Ramp.Mix: the bounds between the two stops' channels, and the right
  stop at fraction 1, hold on exact reals only. In doubles a channel whose
  two stops are equal can come out one below them.
- Ramp.TableEntries: each entry is the exact-real mix, so the promise
  that it lies between its stops does not carry over to the doubles of
  the code. Entries of the black-to-white ramp can have alpha 254, and in
  the white-to-black ramp entry 43 is 211 where the exact mix gives 212.
- Infinities from `low == high` in `elevation` are resolved to 0 or 255
  where the clip makes them so. The infinite bands that `contour` computes
  over an interval of 0 are modelled (`Transforms.BandNumber`,
  `Transforms.ContourCellZeroInterval`). With real-valued parameters no
  other infinity arises. A `gain` of `Infinity`, or one large enough to
  overflow a product, is outside the model.
- `Math.atan`, `Math.hypot`, `Math.acos`, `Math.sin` and `Math.cos` are
  transcendental. The angle of a cell is a function-valued parameter.
- `parseFloat` of the numeric parameters, and `parseInt` of the zoom path
  segment (`lib/util.js:172`), are left out. They are real and integer
  parameters.
- Translate.ParseNatToString: `parseInt` is exact, and the template
  spells a coordinate in plain decimal, only below 2^53 (spelling in
  exponent form from 10^21). The model reads and writes coordinates as
  exact integers of any size, which covers every real zoom level.
- Translate.TranslateTile: holds for coordinates of any size. The code
  moves the tile exactly only while the coordinates stay below 2^53;
  above that `parseInt` rounds ("9007199254740993" reads as
  9007199254740992).
- Translate.TranslateCompose: composes for coordinates of any size. The
  code's second move rejects a coordinate written in exponent form
  (10^21 and up), and rounds beyond 2^53.
- Translate.TranslateBack: the round trip is promised for coordinates of
  any size, and holds in the code only below 2^53.
- Translate.Translate returns the neighbour's base and coordinates
  instead of a `URL` object. Its address is `Translate.Href`, and URL
  normalisation by `new URL` is not modelled.
- Transforms.ContourPixel: states the output in terms of contour levels
  for a positive interval only. A zero interval is covered by
  `ContourCellZeroInterval`, and a negative one only by ContourCell.
- Transforms.RampParam: built on the intended parser. As written, a ramp
  parameter with a bad piece that is read throws (see
  `Transforms.FiveDigitRampParamFails`), and one with integer interior
  ticks yields more than 256 entries (see Findings). That behaviour is
  `Transforms.RampParamAsWritten`.
- Assembler.PaintedCell: assumes nine square tiles of one width. The code
  takes the canvas size from the first tile (`lib/util.js:155-156`) and
  accepts tiles of any size. Tiles of unequal size are not modelled.
- Assembler.AsDemCell: assumes nine square tiles of one width, as
  `Assembler.PaintedCell` does.
- Assembler.AsDemCentre: assumes nine square tiles of one width, as
  `Assembler.PaintedCell` does.
- Assembler.ErrorTileGivesNoData: is stated for a blank tile of the common
  width. The error image is always 256×256 (`lib/util.js:54`), so it is
  that tile only when the tiles are 256 pixels wide. Among tiles of
  another size, part of its slot would keep the fill.
- Transforms.RampParamUsable: states the ramp parameter with the
  intended parser, which rejects a bad piece and falls back to the default.
  The code as written throws instead; that behaviour is
  `Transforms.RampParamAsWritten`.
- `dempng-worker.js`, the request routing, is not part of this model.
  Only its query stripping is mentioned above.

## Findings

| source | as written | input that shows it | evidently intended | confidence | as-written member | corrected member |
|---|---|---|---|---|---|---|
| lib/util.js:36 | `def.find((a) => a === null)` returns the `null` it finds, which is falsy, so the check never rejects. A piece of 5, 7 or 9+ hex digits passes the shape test, parses to `null`, and the loop throws a TypeError on `left.rgba.map` (or `right.rgba[j]`) once a non-empty segment reads it. | `"fffff-000"` | Return `null`, so that the caller falls back to its default ramp. | not executed | Ramp.AsWrittenRejectedTokenThrows | Ramp.RampOf |
| lib/util.js:45 | For a positive tick, `Math.ceil(left.tick + Number.MIN_VALUE)` equals `Math.ceil(left.tick)`, so an integer interior tick is emitted again by the next segment. With four stops (ticks 85 and 170) the table has 258 entries, and entry 255 is not the last colour. | `"000-fff-000-fff"`: entry 255 is grey 249, not white | Start each segment at the least integer strictly above the left tick, giving 256 entries ending on the last colour. | not executed | Ramp.AsWrittenBlackWhiteRamp | Ramp.TableEntries |

=== FILE: assembler.dfy ===
/** The pure parts of `asDEM` in lib/util.js: the nine neighbouring tiles are
    requested in row-major order of their offsets, drawn onto a padded square
    canvas pre-filled with the no-data colour, and every canvas pixel is
    decoded and divided by a zoom-dependent unit. Fetching and image decoding
    are not modelled: the nine bitmaps are inputs. */
module Assembler {
  import opened Common
  import opened Codec
  import opened Raster
  import opened Translate

  /** A decoded image: RGBA pixels in row-major order. */
  type Bitmap = Dem<Pixel>

  /** The canvas fill `#800000`, opaque; its packed value is the no-data pattern. */
  const FillPixel: Pixel := Pixel(0x80, 0, 0, 0xff)

  /** A square image of `size` fill pixels: the blank canvas, and, at size
      256, the bitmap that stands in for a tile whose response is not ok. */
  function Blank(size: nat): (b: Bitmap)
    ensures Valid(b) && b.width == size && b.height == size
  {
    Dem(seq(size * size, _ => FillPixel), size, size)
  }

  const ErrorTileSize: nat := 256

  function ErrorTile(): Bitmap {
    Blank(ErrorTileSize)
  }

  /** The error tile and the canvas fill decode to no-data, whatever the zoom. */
  lemma BlankIsNoData(size: nat, x: int, y: int)
    requires 0 <= x < size && 0 <= y < size
    ensures Cell(Blank(size), x, y) == FillPixel
    ensures DecodePixel(Cell(Blank(size), x, y)).NoData?
  {
    CellInRange(size, size, x, y);
  }

  /** Position in the fetch order of the tile `dx` across and `dy` down:
      `dx + 1 + (dy + 1) * 3`. */
  function Slot(dx: int, dy: int): int {
    dx + 1 + (dy + 1) * 3
  }

  /** The offsets in fetch order are the inverse of `Slot`. */
  lemma SlotOffset(n: int, dx: int, dy: int)
    requires 0 <= n < 9 && -1 <= dx <= 1 && -1 <= dy <= 1
    ensures Slot(dx, dy) == n <==> dx == n % 3 - 1 && dy == n / 3 - 1
  {
    if Slot(dx, dy) == n {
      DivModUnique(n, 3, dy + 1, dx + 1);
    }
  }

  /** The requests of `asDEM`: `dy` in the outer loop, `dx` in the inner,
      each the tile URL translated by the offsets (`None` where the source
      throws on a malformed URL). The slot `Slot(dx, dy)` that the drawing
      loop reads holds the tile of offsets (dx, dy). */
  method NeighbourUrls(url: string) returns (urls: seq<Option<Target>>)
    ensures |urls| == 9
    ensures forall n :: 0 <= n < 9 ==> urls[n] == Translate.Translate(url, n % 3 - 1, n / 3 - 1)
    ensures forall dx, dy :: -1 <= dx <= 1 && -1 <= dy <= 1 ==> urls[Slot(dx, dy)] == Translate.Translate(url, dx, dy)
  {
    urls := [];
    for dy := -1 to 2
      invariant |urls| == (dy + 1) * 3
      invariant UrlsSoFar(url, urls)
    {
      for dx := -1 to 2
        invariant |urls| == (dy + 1) * 3 + dx + 1
        invariant UrlsSoFar(url, urls)
      {
        PushUrl(url, urls, dx, dy);
        urls := urls + [Translate.Translate(url, dx, dy)];
      }
    }
    forall dx, dy | -1 <= dx <= 1 && -1 <= dy <= 1
      ensures urls[Slot(dx, dy)] == Translate.Translate(url, dx, dy)
    {
      SlotOffset(Slot(dx, dy), dx, dy);
    }
  }

  /** Entry n of the requests made so far is the neighbour n % 3 - 1 across
      and n / 3 - 1 down. */
  ghost predicate UrlsSoFar(url: string, urls: seq<Option<Target>>) {
    forall n :: 0 <= n < |urls| ==> urls[n] == Translate.Translate(url, n % 3 - 1, n / 3 - 1)
  }

  /** The request for neighbour (dx, dy) goes in slot `dx + 1 + (dy + 1) * 3`. */
  lemma PushUrl(url: string, urls: seq<Option<Target>>, dx: int, dy: int)
    requires UrlsSoFar(url, urls) && -1 <= dx <= 1 && -1 <= dy <= 1
    requires |urls| == (dy + 1) * 3 + dx + 1
    ensures UrlsSoFar(url, urls + [Translate.Translate(url, dx, dy)])
  {
    DivModUnique(|urls|, 3, dy + 1, dx + 1);
    var next := urls + [Translate.Translate(url, dx, dy)];
    forall n | 0 <= n < |next|
      ensures next[n] == Translate.Translate(url, n % 3 - 1, n / 3 - 1)
    {
      if n < |urls| {
        assert next[n] == urls[n];
      }
    }
  }

  /** Every pixel of a non-empty raster has a column and a row. */
  lemma Position(w: int, h: int, k: int)
    requires w >= 0 && h >= 0 && 0 <= k < w * h
    ensures w > 0 && 0 <= k % w < w && 0 <= k / w < h
  {
    DivBelow(k, w, h);
  }

  /** Whether an image drawn with its top-left corner at (ox, oy) covers (x, y). */
  predicate Covers(t: Bitmap, ox: int, oy: int, x: int, y: int) {
    ox <= x < ox + t.width && oy <= y < oy + t.height
  }

  function DrawnAt(c: Bitmap, t: Bitmap, ox: int, oy: int, k: int): Pixel
    requires Valid(c) && Valid(t) && 0 <= k < |c.data|
  {
    Position(c.width, c.height, k);
    var x, y := k % c.width, k / c.width;
    if Covers(t, ox, oy, x, y) then Cell(t, x - ox, y - oy) else c.data[k]
  }

  /** `drawImage(t, ox, oy)` of an opaque image: the covered pixels are
      replaced, the rest of the canvas is kept, and nothing outside the
      canvas is drawn. */
  function Draw(c: Bitmap, t: Bitmap, ox: int, oy: int): (r: Bitmap)
    requires Valid(c) && Valid(t)
    ensures Valid(r) && r.width == c.width && r.height == c.height
  {
    Dem(seq(|c.data|, k requires 0 <= k < |c.data| => DrawnAt(c, t, ox, oy, k)), c.width, c.height)
  }

  lemma DrawCell(c: Bitmap, t: Bitmap, ox: int, oy: int, x: int, y: int)
    requires Valid(c) && Valid(t) && 0 <= x < c.width && 0 <= y < c.height
    ensures Cell(Draw(c, t, ox, oy), x, y) ==
            if Covers(t, ox, oy, x, y) then Cell(t, x - ox, y - oy) else Cell(c, x, y)
  {
    CellInRange(c.width, c.height, x, y);
    DivModUnique(y * c.width + x, c.width, y, x);
  }

  predicate AllValid(tiles: seq<Bitmap>) {
    forall n :: 0 <= n < |tiles| ==> Valid(tiles[n])
  }

  /** The canvas after the first `n` draws of the drawing loop: tile `n - 1`
      goes to `(w * dx + p, w * dy + p)` for its offsets (dx, dy). The source
      takes both `w` and `h` from the first tile's width. */
  function Painted(tiles: seq<Bitmap>, w: nat, p: nat, n: nat): (c: Bitmap)
    requires |tiles| == 9 && AllValid(tiles) && n <= 9
    ensures Valid(c) && c.width == w + 2 * p && c.height == w + 2 * p
  {
    if n == 0 then Blank(w + 2 * p)
    else
      var m := n - 1;
      Draw(Painted(tiles, w, p, m), tiles[m], w * (m % 3 - 1) + p, w * (m / 3 - 1) + p)
  }

  /** The drawing loop of `asDEM`, on the fill-coloured canvas of side `w + 2p`. */
  method PaintCanvas(tiles: seq<Bitmap>, p: nat) returns (canvas: Bitmap)
    requires |tiles| == 9 && AllValid(tiles)
    ensures canvas == Painted(tiles, tiles[0].width, p, 9)
  {
    var w, h := tiles[0].width, tiles[0].width;
    canvas := Blank(w + 2 * p);
    for dy := -1 to 2
      invariant canvas == Painted(tiles, w, p, (dy + 1) * 3)
    {
      for dx := -1 to 2
        invariant canvas == Painted(tiles, w, p, (dy + 1) * 3 + dx + 1)
      {
        var i := dx + 1 + (dy + 1) * 3;
        PaintStep(tiles, w, p, dx, dy);
        canvas := Draw(canvas, tiles[i], w * dx + p, h * dy + p);
      }
    }
  }

  /** The tile drawn in slot (dx, dy) is placed `dx` tiles across and `dy`
      down from the padding corner. */
  lemma PaintStep(tiles: seq<Bitmap>, w: nat, p: nat, dx: int, dy: int)
    requires |tiles| == 9 && AllValid(tiles) && -1 <= dx <= 1 && -1 <= dy <= 1
    ensures var n := dx + 1 + (dy + 1) * 3;
            Painted(tiles, w, p, n + 1) == Draw(Painted(tiles, w, p, n), tiles[n], w * dx + p, w * dy + p)
  {
    DivModUnique(dx + 1 + (dy + 1) * 3, 3, dy + 1, dx + 1);
  }

  /** Offsets (in tiles) of the canvas pixel (x, y) from the centre tile. */
  function TileOffset(w: int, p: int, x: int): int
    requires w > 0
  {
    (x - p) / w
  }

  /** Whether some tile of the 3x3 block covers canvas pixel (x, y). */
  predicate Covered(w: int, p: int, x: int, y: int)
    requires w > 0
  {
    -1 <= TileOffset(w, p, x) <= 1 && -1 <= TileOffset(w, p, y) <= 1
  }

  predicate SquareTiles(tiles: seq<Bitmap>, w: int) {
    forall n :: 0 <= n < |tiles| ==> tiles[n].width == w && tiles[n].height == w
  }

  /** A `w`-wide interval starting at `w * q + p` holds exactly the points whose
      offset is `q`, and the point's position in it is its remainder. */
  lemma IntervalOffset(w: int, p: int, q: int, x: int)
    requires w > 0
    ensures w * q + p <= x < w * q + p + w <==> TileOffset(w, p, x) == q
    ensures TileOffset(w, p, x) == q ==> x - (w * q + p) == (x - p) % w
  {
    if w * q + p <= x < w * q + p + w {
      DivModUnique(x - p, w, q, x - p - w * q);
    }
  }

  /** Tile `m` drawn at its place covers canvas pixel (x, y) exactly when the
      pixel's tile offsets are those of slot `m`. */
  lemma CoversSlot(t: Bitmap, w: int, p: int, m: int, x: int, y: int)
    requires w > 0 && t.width == w && t.height == w && 0 <= m < 9
    ensures Covers(t, w * (m % 3 - 1) + p, w * (m / 3 - 1) + p, x, y) <==>
            Covered(w, p, x, y) && Slot(TileOffset(w, p, x), TileOffset(w, p, y)) == m
    ensures Covers(t, w * (m % 3 - 1) + p, w * (m / 3 - 1) + p, x, y) ==>
            x - (w * (m % 3 - 1) + p) == (x - p) % w && y - (w * (m / 3 - 1) + p) == (y - p) % w
  {
    IntervalOffset(w, p, m % 3 - 1, x);
    IntervalOffset(w, p, m / 3 - 1, y);
    if Covered(w, p, x, y) {
      SlotOffset(m, TileOffset(w, p, x), TileOffset(w, p, y));
    }
  }

  /** Which tile lands where: after `n` draws of equal square tiles, a canvas
      pixel shows the pixel of the tile whose slot covers it, if that slot
      has been drawn, and the fill otherwise. The tiles never overlap. */
  lemma {:induction false} PaintedCell(tiles: seq<Bitmap>, w: int, p: nat, n: nat, x: int, y: int)
    requires |tiles| == 9 && AllValid(tiles) && SquareTiles(tiles, w) && w > 0 && n <= 9
    requires 0 <= x < w + 2 * p && 0 <= y < w + 2 * p
    ensures Cell(Painted(tiles, w, p, n), x, y) ==
            if Covered(w, p, x, y) && Slot(TileOffset(w, p, x), TileOffset(w, p, y)) < n
            then Cell(tiles[Slot(TileOffset(w, p, x), TileOffset(w, p, y))], (x - p) % w, (y - p) % w)
            else FillPixel
  {
    if n == 0 {
      BlankIsNoData(w + 2 * p, x, y);
    } else {
      var m := n - 1;
      var ox, oy := w * (m % 3 - 1) + p, w * (m / 3 - 1) + p;
      DrawCell(Painted(tiles, w, p, m), tiles[m], ox, oy, x, y);
      CoversSlot(tiles[m], w, p, m, x, y);
      PaintedCell(tiles, w, p, m, x, y);
    }
  }

  /** `Math.pow(2, e)` for an integer exponent. */
  function Pow2(e: int): (r: real)
    ensures r > 0.0
    decreases if e >= 0 then e else -e
  {
    if e == 0 then 1.0
    else if e > 0 then 2.0 * Pow2(e - 1)
    else Pow2(e + 1) / 2.0
  }

  /** The divisor of every sample: `500 * 2^(15 - z)` when normalising, else 1. */
  function Unit(z: int, normalize: bool): (u: real)
    ensures u > 0.0
  {
    if normalize then 500.0 * Pow2(15 - z) else 1.0
  }

  /** The unit is 500 at zoom 15 and halves with every zoom level in. */
  lemma UnitPerZoom(z: int)
    ensures Unit(15, true) == 500.0
    ensures Unit(z, true) == 2.0 * Unit(z + 1, true)
    ensures Unit(z, false) == 1.0
  {
    var e := 14 - z;
    if e >= 0 {
      assert Pow2(e + 1) == 2.0 * Pow2(e);
    } else {
      assert Pow2(e) == Pow2(e + 1) / 2.0;
    }
  }

  /** The RGBA byte buffer of an image, as `getImageData` lays it out. */
  function Flatten(ps: seq<Pixel>): (buf: seq<Byte>)
    ensures |buf| == 4 * |ps|
    ensures forall k :: 0 <= k < |ps| ==>
              buf[4 * k] == ps[k].r && buf[4 * k + 1] == ps[k].g &&
              buf[4 * k + 2] == ps[k].b && buf[4 * k + 3] == ps[k].a
  {
    if |ps| == 0 then []
    else
      var rest := Flatten(ps[1..]);
      var buf := [ps[0].r, ps[0].g, ps[0].b, ps[0].a] + rest;
      assert forall k :: 1 <= k < |ps| ==> ps[1..][k - 1] == ps[k];
      buf
  }

  /** The decode loop of `asDEM`: four bytes per pixel, alpha ignored, each
      sample the decoded value divided by the unit. */
  method DecodeBuffer(d: seq<Byte>, unit: real) returns (normalized: seq<Num>)
    requires |d| % 4 == 0 && unit != 0.0
    ensures |normalized| == |d| / 4
    ensures forall k :: 0 <= k < |normalized| ==>
              normalized[k] == Div(Decode(d[4 * k], d[4 * k + 1], d[4 * k + 2]), unit)
  {
    normalized := [];
    var i := 0;
    while i < |d|
      invariant 0 <= i <= |d| && i % 4 == 0 && |normalized| == i / 4
      invariant forall k :: 0 <= k < |normalized| ==>
                  normalized[k] == Div(Decode(d[4 * k], d[4 * k + 1], d[4 * k + 2]), unit)
    {
      var src := Decode(d[i], d[i + 1], d[i + 2]);
      normalized := normalized + [Div(src, unit)];
      i := i + 4;
    }
  }

  /** One sample per pixel: the decoded elevation over the unit. */
  function Samples(ps: seq<Pixel>, unit: real): (s: seq<Num>)
    requires unit != 0.0
  {
    seq(|ps|, k requires 0 <= k < |ps| => Div(DecodePixel(ps[k]), unit))
  }

  /** The raster `asDEM` returns for nine fetched bitmaps, the padding, the
      zoom and the normalisation switch. */
  function AsDem(tiles: seq<Bitmap>, p: nat, z: int, normalize: bool): (d: Dem<Num>)
    requires |tiles| == 9 && AllValid(tiles)
    ensures Valid(d)
    ensures d.width == tiles[0].width + 2 * p && d.height == tiles[0].width + 2 * p
  {
    var canvas := Painted(tiles, tiles[0].width, p, 9);
    Dem(Samples(canvas.data, Unit(z, normalize)), canvas.width, canvas.height)
  }

  /** `asDEM` as the source sequences it: paint, read the buffer back, decode. */
  method AssembleDem(tiles: seq<Bitmap>, p: nat, z: int, normalize: bool) returns (d: Dem<Num>)
    requires |tiles| == 9 && AllValid(tiles)
    ensures d == AsDem(tiles, p, z, normalize)
  {
    var canvas := PaintCanvas(tiles, p);
    var unit := Unit(z, normalize);
    var buf := Flatten(canvas.data);
    var normalized := DecodeBuffer(buf, unit);
    assert normalized == Samples(canvas.data, unit);
    d := Dem(normalized, canvas.width, canvas.height);
  }

  /** Every sample of the assembled raster: the decoded pixel of the tile
      that covers it over the unit, or no-data where only the fill shows. */
  lemma AsDemCell(tiles: seq<Bitmap>, p: nat, z: int, normalize: bool, x: int, y: int)
    requires |tiles| == 9 && AllValid(tiles) && SquareTiles(tiles, tiles[0].width) && tiles[0].width > 0
    requires 0 <= x < tiles[0].width + 2 * p && 0 <= y < tiles[0].width + 2 * p
    ensures var w := tiles[0].width;
            Cell(AsDem(tiles, p, z, normalize), x, y) ==
            if Covered(w, p, x, y)
            then Div(DecodePixel(Cell(tiles[Slot(TileOffset(w, p, x), TileOffset(w, p, y))], (x - p) % w, (y - p) % w)), Unit(z, normalize))
            else NoData
  {
    var w := tiles[0].width;
    var canvas := Painted(tiles, w, p, 9);
    PaintedCell(tiles, w, p, 9, x, y);
    CellInRange(canvas.width, canvas.height, x, y);
    if Covered(w, p, x, y) {
      var dx, dy := TileOffset(w, p, x), TileOffset(w, p, y);
      assert 0 <= Slot(dx, dy) < 9;
    }
  }

  /** The centre tile's pixel (i, j) becomes the sample at (i + p, j + p). */
  lemma AsDemCentre(tiles: seq<Bitmap>, p: nat, z: int, normalize: bool, i: int, j: int)
    requires |tiles| == 9 && AllValid(tiles) && SquareTiles(tiles, tiles[0].width)
    requires 0 <= i < tiles[0].width && 0 <= j < tiles[0].width
    ensures Cell(AsDem(tiles, p, z, normalize), i + p, j + p) ==
            Div(DecodePixel(Cell(tiles[4], i, j)), Unit(z, normalize))
  {
    var w := tiles[0].width;
    AsDemCell(tiles, p, z, normalize, i + p, j + p);
    DivModUnique(i, w, 0, i);
    DivModUnique(j, w, 0, j);
  }

  /** With the default padding of one pixel, every canvas pixel is covered by
      a tile: the fill shows only where a tile is smaller than the first. */
  lemma PaddingOneCovered(w: int, x: int, y: int)
    requires w > 0 && 0 <= x < w + 2 && 0 <= y < w + 2
    ensures Covered(w, 1, x, y)
  {
    OffsetInBlock(w, x);
    OffsetInBlock(w, y);
  }

  lemma OffsetInBlock(w: int, x: int)
    requires w > 0 && 0 <= x < w + 2
    ensures -1 <= TileOffset(w, 1, x) <= 1
  {
    if x == 0 {
      DivModUnique(-1, w, -1, w - 1);
    } else if x <= w {
      DivModUnique(x - 1, w, 0, x - 1);
    } else {
      DivModUnique(x - 1, w, 1, x - 1 - w);
    }
  }

  /** A neighbour whose response is not ok (the error tile) contributes only
      no-data samples. */
  lemma ErrorTileGivesNoData(tiles: seq<Bitmap>, p: nat, z: int, normalize: bool, x: int, y: int)
    requires |tiles| == 9 && AllValid(tiles) && SquareTiles(tiles, tiles[0].width) && tiles[0].width > 0
    requires 0 <= x < tiles[0].width + 2 * p && 0 <= y < tiles[0].width + 2 * p
    requires var w := tiles[0].width;
             Covered(w, p, x, y) ==> tiles[Slot(TileOffset(w, p, x), TileOffset(w, p, y))] == Blank(w)
    ensures Cell(AsDem(tiles, p, z, normalize), x, y) == NoData
  {
    var w := tiles[0].width;
    AsDemCell(tiles, p, z, normalize, x, y);
    if Covered(w, p, x, y) {
      BlankIsNoData(w, (x - p) % w, (y - p) % w);
    }
  }

  /** Convolving a raster assembled with the default padding gives back a
      raster of exactly one tile. */
  lemma ConvolvedIsOneTile(tiles: seq<Bitmap>, z: int, normalize: bool, m: Nine<real>)
    requires |tiles| == 9 && AllValid(tiles)
    ensures Valid(Convolution(AsDem(tiles, 1, z, normalize), m))
    ensures Convolution(AsDem(tiles, 1, z, normalize), m).width == tiles[0].width
    ensures Convolution(AsDem(tiles, 1, z, normalize), m).height == tiles[0].width
  {
  }
}

=== FILE: clip.dfy ===
/** `clip(val, min, max)` of lib/util.js: clamps a number into the interval
    spanned by two bounds, swapping the bounds first when they are reversed. */
module Clip {
  import opened Common

  /** Clamp `v` into the closed interval between `lo` and `hi`, whichever is smaller. */
  function Clip(v: real, lo: real, hi: real): (r: real)
    ensures Min(lo, hi) <= r <= Max(lo, hi)
    ensures Min(lo, hi) <= v <= Max(lo, hi) ==> r == v
    ensures v < Min(lo, hi) ==> r == Min(lo, hi)
    ensures v > Max(lo, hi) ==> r == Max(lo, hi)
    decreases if hi < lo then 1 else 0
  {
    if hi < lo then Clip(v, hi, lo)
    else if v < lo then lo
    else if v > hi then hi
    else v
  }

  /** The order of the two bounds does not matter. */
  lemma ClipSymmetric(v: real, a: real, b: real)
    ensures Clip(v, a, b) == Clip(v, b, a)
  {
  }

  /** Clipping twice with the same bounds is clipping once. */
  lemma ClipIdempotent(v: real, a: real, b: real)
    ensures Clip(Clip(v, a, b), a, b) == Clip(v, a, b)
  {
  }

  /** Clipping preserves the order of its inputs. */
  lemma ClipMonotone(u: real, v: real, a: real, b: real)
    requires u <= v
    ensures Clip(u, a, b) <= Clip(v, a, b)
  {
  }
}

=== FILE: codec.dfy ===
/** The elevation bit-codec: a 24-bit value packed into the red, green and
    blue channels of a pixel, read as a signed fixed-point number with one
    reserved no-data pattern (0x800000), and the re-encoding into the
    Mapbox Terrain-RGB layout (height = -10000 + 0.1 * value metres). */
module Codec {
  import opened Common

  /** The reserved pattern: red 0x80, green 0, blue 0. */
  const NoDataRaw: int := 0x80_0000

  /** 2^24, the modulus of the 24-bit packing (`1 << 24`). */
  const Wrap: int := 0x100_0000

  /** Offset of the Terrain-RGB encoding: value 100000 is height 0. */
  const TerrainOffset: int := 100000

  /** The packed value `(r << 16) + (g << 8) + b`. */
  function Raw(r: Byte, g: Byte, b: Byte): (raw: int)
    ensures 0 <= raw < Wrap
    ensures raw / 0x1_0000 == r && (raw / 0x100) % 0x100 == g && raw % 0x100 == b
  {
    var raw := r * 0x1_0000 + g * 0x100 + b;
    DivModUnique(raw, 0x1_0000, r, g * 0x100 + b);
    DivModUnique(raw, 0x100, r * 0x100 + g, b);
    DivModUnique(r * 0x100 + g, 0x100, r, g);
    raw
  }

  function RawOf(p: Pixel): int {
    Raw(p.r, p.g, p.b)
  }

  /** The three bytes of the low 24 bits of `v`, most significant first. */
  function Bytes(v: int): (rgb: (Byte, Byte, Byte))
    ensures Raw(rgb.0, rgb.1, rgb.2) == v % Wrap
  {
    var u := v % Wrap;
    var rgb: (Byte, Byte, Byte) := (u / 0x1_0000, (u / 0x100) % 0x100, u % 0x100);
    ByteSplit(u);
    rgb
  }

  /** A 24-bit value is the packing of its own three bytes. */
  lemma ByteSplit(u: int)
    requires 0 <= u < Wrap
    ensures u / 0x1_0000 < 0x100
    ensures Raw(u / 0x1_0000, (u / 0x100) % 0x100, u % 0x100) == u
  {
    var hi, lo := u / 0x100, u % 0x100;
    DivModUnique(u, 0x100, hi, lo);
    var r, g := hi / 0x100, hi % 0x100;
    DivModUnique(hi, 0x100, r, g);
    DivModUnique(u, 0x1_0000, r, g * 0x100 + lo);
  }

  /** Reference reading of a 24-bit pattern as a two's-complement integer. */
  function Signed24(raw: int): int {
    if raw < 0x80_0000 then raw else raw - Wrap
  }

  function Sign(x: int): int {
    if x < 0 then -1 else if x == 0 then 0 else 1
  }

  /** Decoding as the source writes it: the packed value minus the entry
      of the table `[0, NaN, 1 << 24]` selected by the sign of `raw - 0x800000`. */
  function Decode(r: Byte, g: Byte, b: Byte): (e: Num)
    ensures e.NoData? <==> Raw(r, g, b) == NoDataRaw
    ensures e.Val? ==> e.v == Signed24(Raw(r, g, b)) as real
    ensures e.Val? ==> -0x7F_FFFF as real <= e.v <= 0x7F_FFFF as real
  {
    var raw := Raw(r, g, b);
    var correction := [Val(0.0), NoData, Val(Wrap as real)][Sign(raw - NoDataRaw) + 1];
    Sub(Val(raw as real), correction)
  }

  function DecodePixel(p: Pixel): Num {
    Decode(p.r, p.g, p.b)
  }

  /** The three cases of the decoder, one by one. */
  lemma DecodeCases(r: Byte, g: Byte, b: Byte)
    ensures Raw(r, g, b) < NoDataRaw ==> Decode(r, g, b) == Val(Raw(r, g, b) as real)
    ensures Raw(r, g, b) == NoDataRaw ==> Decode(r, g, b) == NoData
    ensures Raw(r, g, b) > NoDataRaw ==>
              Decode(r, g, b) == Val((Raw(r, g, b) - Wrap) as real) && Decode(r, g, b).v < 0.0
  {
  }

  /** Every integer the codec can carry survives a trip through its bytes. */
  lemma {:induction false} DecodeBytesRoundTrip(v: int)
    requires -0x7F_FFFF <= v <= 0x7F_FFFF
    ensures var rgb := Bytes(v); Decode(rgb.0, rgb.1, rgb.2) == Val(v as real)
  {
    var rgb := Bytes(v);
    if v < 0 {
      assert v % Wrap == v + Wrap;
    } else {
      assert v % Wrap == v;
    }
  }

  /** The source value fed to the Terrain-RGB re-encoder: `[0, src, 1 << 24]`
      in place of the decoder's table, so the no-data pattern becomes 0. */
  function MapboxSource(r: Byte, g: Byte, b: Byte): (src: int)
    ensures Decode(r, g, b).Val? ==> src as real == Decode(r, g, b).v
    ensures Decode(r, g, b).NoData? ==> src == 0
  {
    var raw := Raw(r, g, b);
    var correction := [0, raw, Wrap][Sign(raw - NoDataRaw) + 1];
    raw - correction
  }

  /** `Math.floor(0.1 * src + 100000)` with the product taken exactly. */
  function TerrainValue(src: int): (dst: int)
    ensures dst == src / 10 + TerrainOffset
  {
    ((src as real) / 10.0 + TerrainOffset as real).Floor
  }

  /** One byte of `dst` as `(dst & mask) >> shift` yields it: the bitwise
      operators act on the 32-bit two's-complement image of `dst`, whose
      bits 0..23 are those of `dst mod 2^24` for negative `dst` too. */
  function MaskedByte(dst: int, shift: nat): (b: Byte)
    requires shift == 0 || shift == 8 || shift == 16
  {
    if shift == 0 then dst % 0x100
    else if shift == 8 then (dst / 0x100) % 0x100
    else (dst / 0x1_0000) % 0x100
  }

  /** The three bytes the re-encoder writes for one source value. */
  function MapboxEncode(src: int): (rgb: (Byte, Byte, Byte))
    ensures Raw(rgb.0, rgb.1, rgb.2) == TerrainValue(src) % Wrap
  {
    var dst := TerrainValue(src);
    var rgb := (MaskedByte(dst, 16), MaskedByte(dst, 8), MaskedByte(dst, 0));
    MaskedBytesAreLow24(dst);
    rgb
  }

  lemma MaskedBytesAreLow24(dst: int)
    ensures Raw(MaskedByte(dst, 16), MaskedByte(dst, 8), MaskedByte(dst, 0)) == dst % Wrap
  {
    var u := dst % Wrap;
    var q := dst / Wrap;
    assert dst == q * Wrap + u;
    assert dst / 0x100 == q * 0x1_0000 + u / 0x100;
    assert dst / 0x1_0000 == q * 0x100 + u / 0x1_0000;
    assert (dst / 0x1_0000) % 0x100 == u / 0x1_0000;
    assert (dst / 0x100) % 0x100 == (u / 0x100) % 0x100;
    assert dst % 0x100 == u % 0x100;
  }

  /** Terrain-RGB reading of a pixel, in decimetres: `-10000 m + 0.1 m * value`. */
  function TerrainDecimetres(r: Byte, g: Byte, b: Byte): int {
    Raw(r, g, b) - TerrainOffset
  }

  /** The re-encoded bytes hold `dst` exactly precisely when `dst` is not
      negative, that is when the source is at least -1000000 (-10000 m); the
      decoder's range never reaches the upper end of 24 bits. */
  lemma MapboxEncodeExact(src: int)
    requires -0x7F_FFFF <= src <= 0x7F_FFFF
    ensures var rgb := MapboxEncode(src);
            Raw(rgb.0, rgb.1, rgb.2) == TerrainValue(src) <==> src >= -1_000_000
  {
  }

  /** In its exact range, the Terrain-RGB reading of the re-encoded pixel is
      the source elevation (centimetres) truncated down to a whole decimetre. */
  lemma MapboxEncodeIsTerrainRgb(src: int)
    requires -1_000_000 <= src <= 0x7F_FFFF
    ensures var rgb := MapboxEncode(src);
            var h := TerrainDecimetres(rgb.0, rgb.1, rgb.2);
            10 * h <= src < 10 * h + 10
  {
    var dst := TerrainValue(src);
    assert 0 <= dst < Wrap;
    DivModUnique(dst, Wrap, 0, dst);
    assert TerrainDecimetres(MapboxEncode(src).0, MapboxEncode(src).1, MapboxEncode(src).2) == src / 10;
  }

  /** The re-encoding of one pixel: red, green and blue replaced, alpha untouched. */
  function MapboxPixel(p: Pixel): (q: Pixel)
    ensures q.a == p.a
    ensures RawOf(q) == TerrainValue(MapboxSource(p.r, p.g, p.b)) % Wrap
  {
    var rgb := MapboxEncode(MapboxSource(p.r, p.g, p.b));
    Pixel(rgb.0, rgb.1, rgb.2, p.a)
  }

  /** A defined pixel of at least -10000 m re-encodes to its elevation
      truncated to decimetres (a lower one wraps modulo 2^24); the
      no-data pixel is not special-cased and comes out as value 100000
      (bytes 0x01, 0x86, 0xA0), the Terrain-RGB code for height 0. */
  lemma MapboxPixelMeaning(p: Pixel)
    ensures DecodePixel(p).Val? && DecodePixel(p).v >= -1_000_000.0 ==>
              10.0 * (TerrainDecimetres(MapboxPixel(p).r, MapboxPixel(p).g, MapboxPixel(p).b) as real) <= DecodePixel(p).v
              < 10.0 * (TerrainDecimetres(MapboxPixel(p).r, MapboxPixel(p).g, MapboxPixel(p).b) as real) + 10.0
    ensures DecodePixel(p).NoData? ==> MapboxPixel(p) == Pixel(0x01, 0x86, 0xA0, p.a)
  {
    if DecodePixel(p).Val? && DecodePixel(p).v >= -1_000_000.0 {
      MapboxEncodeIsTerrainRgb(MapboxSource(p.r, p.g, p.b));
    }
    if DecodePixel(p).NoData? {
      MapboxNoData(p);
    }
  }

  lemma MapboxNoData(p: Pixel)
    requires DecodePixel(p).NoData?
    ensures MapboxPixel(p) == Pixel(0x01, 0x86, 0xA0, p.a)
  {
    assert MapboxSource(p.r, p.g, p.b) == 0;
    assert TerrainValue(0) == 100000;
  }

  /** The `mapbox` transform over a whole image buffer. */
  function Mapbox(image: seq<Pixel>): (out: seq<Pixel>)
    ensures |out| == |image|
    ensures forall i :: 0 <= i < |out| ==> out[i].a == image[i].a
    ensures forall i :: 0 <= i < |out| ==>
              RawOf(out[i]) == TerrainValue(MapboxSource(image[i].r, image[i].g, image[i].b)) % Wrap
  {
    seq(|image|, i requires 0 <= i < |image| => MapboxPixel(image[i]))
  }
}

=== FILE: colors.dfy ===
/** Colour parsing: `parseColor`, which lib/util.js and lib/colors.js define
    identically. A colour is the four-element array `[r, g, b, a]` the source
    returns. */
module Colors {
  import opened Common

  predicate IsHexDigit(c: char) {
    '0' <= c <= '9' || 'a' <= c <= 'f'
  }

  /** Lower-case hexadecimal text, the class `[0-9a-f]`. */
  predicate IsHex(s: string) {
    forall i :: 0 <= i < |s| ==> IsHexDigit(s[i])
  }

  function HexValue(c: char): (n: int)
    requires IsHexDigit(c)
    ensures 0 <= n < 16
  {
    if c <= '9' then c as int - '0' as int else c as int - 'a' as int + 10
  }

  function HexDigit(n: int): (c: char)
    requires 0 <= n < 16
    ensures IsHexDigit(c) && HexValue(c) == n
  {
    if n < 10 then ('0' as int + n) as char else ('a' as int + n - 10) as char
  }

  /** `parseInt(d, 16) * 0x11`: one digit standing for a doubled nibble. */
  function Nibble(c: char): int
    requires IsHexDigit(c)
  {
    HexValue(c) * 0x11
  }

  /** `parseInt` of the two digits at `i`. */
  function HexByte(s: string, i: nat): int
    requires i + 1 < |s| && IsHexDigit(s[i]) && IsHexDigit(s[i + 1])
  {
    HexValue(s[i]) * 16 + HexValue(s[i + 1])
  }

  /** An RGBA colour: exactly four channels, each a byte. */
  predicate IsColor(c: seq<int>) {
    |c| == 4 && forall j :: 0 <= j < 4 ==> 0 <= c[j] <= 255
  }

  predicate AreColors(cs: seq<seq<int>>) {
    forall i :: 0 <= i < |cs| ==> IsColor(cs[i])
  }

  /** `parseColor`: 3 or 4 digits are nibbles, 6 or 8 digits are bytes; the
      forms without alpha get an opaque alpha from an appended "f" or "ff". */
  function ParseColor(s: string): (c: Option<seq<int>>)
    ensures c.Some? <==> IsHex(s) && (|s| == 3 || |s| == 4 || |s| == 6 || |s| == 8)
    ensures c.Some? ==> IsColor(c.value)
    ensures c.Some? && (|s| == 3 || |s| == 6) ==> c.value[3] == 0xff
    ensures c.Some? && |s| == 3 ==> c.value[..3] == [Nibble(s[0]), Nibble(s[1]), Nibble(s[2])]
    ensures c.Some? && |s| == 4 ==> c.value == [Nibble(s[0]), Nibble(s[1]), Nibble(s[2]), Nibble(s[3])]
    ensures c.Some? && |s| == 6 ==> c.value[..3] == [HexByte(s, 0), HexByte(s, 2), HexByte(s, 4)]
    ensures c.Some? && |s| == 8 ==> c.value == [HexByte(s, 0), HexByte(s, 2), HexByte(s, 4), HexByte(s, 6)]
  {
    if |s| == 0 || !IsHex(s) then None
    else if |s| == 3 then
      var t := s + "f";
      Some([Nibble(t[0]), Nibble(t[1]), Nibble(t[2]), Nibble(t[3])])
    else if |s| == 4 then
      Some([Nibble(s[0]), Nibble(s[1]), Nibble(s[2]), Nibble(s[3])])
    else if |s| == 6 then
      var t := s + "ff";
      Some([HexByte(t, 0), HexByte(t, 2), HexByte(t, 4), HexByte(t, 6)])
    else if |s| == 8 then
      Some([HexByte(s, 0), HexByte(s, 2), HexByte(s, 4), HexByte(s, 6)])
    else None
  }

  /** The eight-digit `rrggbbaa` spelling of a colour. */
  function FormatColor(c: seq<int>): (s: string)
    requires IsColor(c)
    ensures |s| == 8 && IsHex(s)
  {
    [ HexDigit(c[0] / 16), HexDigit(c[0] % 16), HexDigit(c[1] / 16), HexDigit(c[1] % 16),
      HexDigit(c[2] / 16), HexDigit(c[2] % 16), HexDigit(c[3] / 16), HexDigit(c[3] % 16) ]
  }

  /** Every colour is parsed back from its eight-digit spelling. */
  lemma ParseFormatRoundTrip(c: seq<int>)
    requires IsColor(c)
    ensures ParseColor(FormatColor(c)) == Some(c)
  {
    var s := FormatColor(c);
    assert HexByte(s, 0) == c[0] && HexByte(s, 2) == c[1];
    assert HexByte(s, 4) == c[2] && HexByte(s, 6) == c[3];
    assert c == [c[0], c[1], c[2], c[3]];
  }

  /** Each digit written twice, as in "abc" to "aabbcc". */
  function Doubled(s: string): (d: string)
    ensures |d| == 2 * |s|
    ensures forall i :: 0 <= i < |s| ==> d[2 * i] == s[i] && d[2 * i + 1] == s[i]
  {
    if |s| == 0 then "" else [s[0], s[0]] + Doubled(s[1..])
  }

  /** The short forms mean their doubled long forms: "abc" is "aabbcc" and
      "abcd" is "aabbccdd". */
  lemma ShortFormIsDoubled(s: string)
    requires |s| == 3 || |s| == 4
    ensures ParseColor(s) == ParseColor(Doubled(s))
  {
    var d := Doubled(s);
    if !IsHex(s) {
      var i :| 0 <= i < |s| && !IsHexDigit(s[i]);
      assert d[2 * i] == s[i];
    } else if |s| == 3 {
      ThreeDigitDoubled(s);
    } else {
      FourDigitDoubled(s);
    }
  }

  lemma ThreeDigitDoubled(s: string)
    requires |s| == 3 && IsHex(s)
    ensures ParseColor(s) == ParseColor(Doubled(s))
  {
    var d := Doubled(s);
    assert d == [s[0], s[0], s[1], s[1], s[2], s[2]];
    assert IsHex(d);
    var t := d + "ff";
    assert HexByte(t, 0) == Nibble(s[0]) && HexByte(t, 2) == Nibble(s[1]);
    assert HexByte(t, 4) == Nibble(s[2]) && HexByte(t, 6) == 0xff;
  }

  lemma FourDigitDoubled(s: string)
    requires |s| == 4 && IsHex(s)
    ensures ParseColor(s) == ParseColor(Doubled(s))
  {
    var d := Doubled(s);
    assert d == [s[0], s[0], s[1], s[1], s[2], s[2], s[3], s[3]];
    assert IsHex(d);
    assert HexByte(d, 0) == Nibble(s[0]) && HexByte(d, 2) == Nibble(s[1]);
    assert HexByte(d, 4) == Nibble(s[2]) && HexByte(d, 6) == Nibble(s[3]);
  }
}

=== FILE: common.dfy ===
/** Value types shared by every stage of the elevation pipeline: optional
    results, bytes, RGBA pixels, and the number-or-no-data samples that the
    JavaScript source represents as doubles with NaN for "no data". */
module Common {

  /** A result that may be missing: the source's `null`. */
  datatype Option<+T> = None | Some(value: T)

  /** One channel of an image buffer. */
  type Byte = x: int | 0 <= x < 256

  /** One RGBA pixel of an image buffer, four bytes in buffer order. */
  datatype Pixel = Pixel(r: Byte, g: Byte, b: Byte, a: Byte)

  /** A raster sample: a finite number, or the no-data value (NaN in the source).
      Samples are never infinite; the quotients that can be are modelled
      where they arise (the contour bands and the `low == high` index). */
  datatype Num = NoData | Val(v: real)

  /** Addition with NaN propagation. */
  function Add(a: Num, b: Num): Num {
    if a.Val? && b.Val? then Val(a.v + b.v) else NoData
  }

  /** Subtraction with NaN propagation. */
  function Sub(a: Num, b: Num): Num {
    if a.Val? && b.Val? then Val(a.v - b.v) else NoData
  }

  /** Multiplication by a finite factor; NaN times anything, zero included, is NaN. */
  function Mul(a: Num, k: real): Num {
    if a.Val? then Val(a.v * k) else NoData
  }

  /** Division by a non-zero finite divisor. */
  function Div(a: Num, k: real): Num
    requires k != 0.0
  {
    if a.Val? then Val(a.v / k) else NoData
  }

  function Min(a: real, b: real): real { if a <= b then a else b }

  function Max(a: real, b: real): real { if a <= b then b else a }

  /** Euclidean division is determined by a quotient and an in-range remainder. */
  lemma DivModUnique(n: int, d: int, q: int, r: int)
    requires d > 0 && 0 <= r < d && n == q * d + r
    ensures n / d == q && n % d == r
  {
    var q', r' := n / d, n % d;
    assert (q - q') * d == r' - r;
    if q' < q {
      MulAtLeast(q - q', d);
    } else if q < q' {
      MulAtLeast(q' - q, d);
    }
  }

  lemma MulAtLeast(a: int, d: int)
    requires a >= 1 && d > 0
    ensures a * d >= d
  {
    assert a * d == (a - 1) * d + d;
  }

  /** `n / d` lies in [0, 1] when `n` lies between 0 and `d`, and is 1 only at `d`. */
  lemma RatioBounds(n: real, d: real)
    requires d != 0.0
    ensures (d > 0.0 && 0.0 <= n <= d) || (d < 0.0 && d <= n <= 0.0) ==> 0.0 <= n / d <= 1.0
    ensures d > 0.0 && 0.0 < n ==> 0.0 < n / d
    ensures n / d == 1.0 <==> n == d
  {
    assert (n / d) * d == n;
  }

  lemma DivMonotone(a: real, b: real, d: real)
    requires a <= b && d > 0.0
    ensures a / d <= b / d
  {
    assert b / d - a / d == (b - a) / d;
  }

  lemma DivMonotoneStrict(a: real, b: real, d: real)
    requires a < b && d > 0.0
    ensures a / d < b / d
  {
    assert b / d - a / d == (b - a) / d;
  }

  lemma DivAntitone(a: real, b: real, d: real)
    requires a <= b && d < 0.0
    ensures a / d >= b / d
  {
    assert a / d - b / d == (b - a) / (-d);
  }

  lemma MulDivAssoc(c: real, n: real, d: real)
    requires d != 0.0
    ensures c * n / d == c * (n / d)
  {
    var t := n / d;
    assert t * d == n;
    assert (c * t) * d == c * n;
  }

  lemma MulMonotone(a: int, b: int, c: int)
    requires a <= b && c >= 0
    ensures a * c <= b * c
  {
    assert b * c - a * c == (b - a) * c;
  }

  lemma MulMonotoneReal(x: real, y: real, u: real)
    requires x <= y && u > 0.0
    ensures x * u <= y * u
  {
  }

  lemma FloorMonotone(u: real, v: real)
    requires u <= v
    ensures u.Floor <= v.Floor
  {
  }
}

=== FILE: ramp.dfy ===
/** Ramp building: `parseColors`, which lib/util.js and lib/colors.js define
    identically. A ramp text is dash-separated colours; stop `i` of `N` sits at
    tick `255 i / (N - 1)` and the table holds, for every integer position
    0..255, the colour interpolated between the two stops around it. */
module Ramp {
  import opened Common
  import opened Colors

  /** The pieces joined back with the separator between them. */
  function Join(parts: seq<string>, sep: char): string
    requires |parts| >= 1
  {
    if |parts| == 1 then parts[0] else parts[0] + [sep] + Join(parts[1..], sep)
  }

  /** `s.split(sep)`: the maximal pieces without `sep`, empty pieces included. */
  function Split(s: string, sep: char): (parts: seq<string>)
    ensures |parts| >= 1
    ensures forall i :: 0 <= i < |parts| ==> sep !in parts[i]
    ensures Join(parts, sep) == s
  {
    if |s| == 0 then [""]
    else
      var rest := Split(s[1..], sep);
      if s[0] == sep then
        assert ([""] + rest)[1..] == rest;
        [""] + rest
      else
        var parts := [[s[0]] + rest[0]] + rest[1..];
        assert parts[1..] == rest[1..];
        assert |rest| > 1 ==> Join(rest, sep) == rest[0] + [sep] + Join(rest[1..], sep);
        parts
  }

  lemma {:induction false} SplitPiece(a: string, sep: char)
    requires sep !in a
    ensures Split(a, sep) == [a]
    decreases |a|
  {
    if |a| > 0 {
      assert sep !in a[1..];
      SplitPiece(a[1..], sep);
      assert [a[0]] + a[1..] == a;
    }
  }

  lemma {:induction false} SplitAfterPiece(a: string, sep: char, t: string)
    requires sep !in a
    ensures Split(a + [sep] + t, sep) == [a] + Split(t, sep)
    decreases |a|
  {
    var s := a + [sep] + t;
    if |a| == 0 {
      assert s[1..] == t;
    } else {
      assert s[1..] == a[1..] + [sep] + t;
      assert sep !in a[1..];
      SplitAfterPiece(a[1..], sep, t);
      assert [a[0]] + a[1..] == a;
    }
  }

  /** Splitting undoes joining pieces that do not contain the separator. */
  lemma {:induction false} SplitJoin(parts: seq<string>, sep: char)
    requires |parts| >= 1
    requires forall i :: 0 <= i < |parts| ==> sep !in parts[i]
    ensures Split(Join(parts, sep), sep) == parts
    decreases |parts|
  {
    if |parts| == 1 {
      SplitPiece(parts[0], sep);
    } else {
      SplitJoin(parts[1..], sep);
      SplitAfterPiece(parts[0], sep, Join(parts[1..], sep));
      assert [parts[0]] + parts[1..] == parts;
    }
  }

  /** The shape `^[0-9a-f]{3,}(?:-[0-9a-f]{3,})+$`, stated on the dash-separated
      pieces: at least two, each at least three hex digits. */
  predicate RampPattern(tokens: seq<string>) {
    |tokens| >= 2 && forall i :: 0 <= i < |tokens| ==> |tokens[i]| >= 3 && IsHex(tokens[i])
  }

  /** A colour stop `{ rgba, tick }`. */
  datatype Stop<C> = Stop(rgba: C, tick: real)

  /** The position of stop `k` of `n`: `0xff * (k / (n - 1))`, taken exactly. */
  function Tick(k: int, n: int): real
    requires n >= 2
  {
    255.0 * (k as real) / ((n - 1) as real)
  }

  /** `Tick(k, n)` compared with an integer is `255 k` compared with `i (n - 1)`. */
  lemma TickBelow(k: int, n: int, i: int)
    requires n >= 2
    ensures Tick(k, n) < i as real <==> 255 * k < i * (n - 1)
    ensures Tick(k, n) == i as real <==> 255 * k == i * (n - 1)
  {
    var d := (n - 1) as real;
    assert Tick(k, n) * d == 255.0 * (k as real);
    assert ((i * (n - 1)) as real) == (i as real) * d;
    if Tick(k, n) < i as real {
      assert Tick(k, n) * d < (i as real) * d;
    } else if Tick(k, n) == i as real {
    } else {
      assert (i as real) * d < Tick(k, n) * d;
    }
  }

  lemma TickLess(j: int, k: int, n: int)
    requires n >= 2 && j < k
    ensures Tick(j, n) < Tick(k, n)
  {
    var d := (n - 1) as real;
    assert Tick(k, n) - Tick(j, n) == 255.0 * ((k - j) as real) / d;
  }

  /** The stops of `def.map((e, i, a) => ({ rgba: e, tick: 0xff * (i / (a.length - 1)) }))`. */
  function EvenStops<C>(cs: seq<C>): (def: seq<Stop<C>>)
    requires |cs| >= 2
    ensures |def| == |cs|
    ensures forall k :: 0 <= k < |cs| ==> def[k] == Stop(cs[k], Tick(k, |cs|))
  {
    seq(|cs|, k requires 0 <= k < |cs| => Stop(cs[k], Tick(k, |cs|)))
  }

  /** Ticks strictly increasing from 0 to 255. */
  predicate Spans<C>(def: seq<Stop<C>>) {
    && |def| >= 2
    && def[0].tick == 0.0
    && def[|def| - 1].tick == 255.0
    && forall j, k :: 0 <= j < k < |def| ==> def[j].tick < def[k].tick
  }

  lemma EvenStopsSpan<C>(cs: seq<C>)
    requires |cs| >= 2
    ensures Spans(EvenStops(cs))
  {
    var n := |cs|;
    var def := EvenStops(cs);
    forall j, k | 0 <= j < k < n
      ensures def[j].tick < def[k].tick
    {
      TickLess(j, k, n);
    }
    TickBelow(n - 1, n, 255);
  }

  predicate ColorStops(def: seq<Stop<seq<int>>>) {
    forall k :: 0 <= k < |def| ==> IsColor(def[k].rgba)
  }

  /** `v` lies between `a` and `b`, whichever order they come in. */
  predicate Between(v: int, a: int, b: int) {
    (a <= v && v <= b) || (b <= v && v <= a)
  }

  /** Every channel of `c` lies between the matching channels of `a` and `b`. */
  predicate ChannelsBetween(c: seq<int>, a: seq<int>, b: seq<int>) {
    |c| == |a| == |b| && forall j :: 0 <= j < |c| ==> Between(c[j], a[j], b[j])
  }

  /** One channel of the interpolation, `Math.floor(x * (1 - t) + y * t)`. */
  function MixChannel(x: int, y: int, t: real): int {
    ((x as real) * (1.0 - t) + (y as real) * t).Floor
  }

  /** For `t` in [0, 1] a mixed channel stays between its two ends, and at
      `t = 1` it is the right end. */
  lemma MixBounds(x: int, y: int, t: real)
    ensures 0.0 <= t <= 1.0 ==> Between(MixChannel(x, y, t), x, y)
    ensures t == 1.0 ==> MixChannel(x, y, t) == y
  {
    if 0.0 <= t <= 1.0 {
      var c := (x as real) * (1.0 - t) + (y as real) * t;
      assert c == (x as real) + ((y - x) as real) * t;
      if x <= y {
        FractionOf((y - x) as real, t);
      } else {
        assert c == (x as real) - ((x - y) as real) * t;
        FractionOf((x - y) as real, t);
      }
    }
  }

  /** A fraction in [0, 1] of a non-negative amount lies between 0 and the amount. */
  lemma FractionOf(d: real, t: real)
    requires d >= 0.0 && 0.0 <= t <= 1.0
    ensures 0.0 <= d * t <= d
  {
    assert d - d * t == d * (1.0 - t);
  }

  /** `left.rgba.map((_, j) => ...)`: the colour a fraction `t` of the way from `a` to `b`. */
  function Mix(a: seq<int>, b: seq<int>, t: real): (m: seq<int>)
    requires |a| == |b|
    ensures |m| == |a|
    ensures 0.0 <= t <= 1.0 ==> ChannelsBetween(m, a, b)
    ensures 0.0 <= t <= 1.0 && IsColor(a) && IsColor(b) ==> IsColor(m)
    ensures t == 1.0 ==> m == b
  {
    var m := seq(|a|, j requires 0 <= j < |a| => MixChannel(a[j], b[j], t));
    forall j | 0 <= j < |a|
      ensures (0.0 <= t <= 1.0 ==> Between(m[j], a[j], b[j])) && (t == 1.0 ==> m[j] == b[j])
    {
      MixBounds(a[j], b[j], t);
    }
    m
  }

  /** `t = (i - left.tick) / (right.tick - left.tick)`: how far position `i`
      lies from the left tick towards the right one; in (0, 1] strictly
      above the left tick and up to the right one. */
  function Frac(i: int, lt: real, rt: real): (t: real)
    requires lt < rt
    ensures lt < i as real <= rt ==> 0.0 < t <= 1.0
    ensures t == 1.0 <==> i as real == rt
  {
    RatioBounds(i as real - lt, rt - lt);
    (i as real - lt) / (rt - lt)
  }

  /** Entries the inner loop pushes for one pair of neighbouring stops at
      ticks `lt < rt`: every integer position from `from` to `rt`, each the
      mix at `t = (i - lt) / (rt - lt)`. */
  function Segment(a: seq<int>, b: seq<int>, lt: real, rt: real, from: int): (seg: seq<seq<int>>)
    requires |a| == |b| && lt < rt
    ensures |seg| == if from <= rt.Floor then rt.Floor - from + 1 else 0
  {
    var count := if from <= rt.Floor then rt.Floor - from + 1 else 0;
    seq(count, j requires 0 <= j < count => Mix(a, b, Frac(from + j, lt, rt)))
  }

  lemma SegmentAt(a: seq<int>, b: seq<int>, lt: real, rt: real, from: int, j: int)
    requires |a| == |b| && lt < rt && 0 <= j && from + j <= rt.Floor
    ensures j < |Segment(a, b, lt, rt, from)|
    ensures Segment(a, b, lt, rt, from)[j] == Mix(a, b, Frac(from + j, lt, rt))
  {
  }

  /** First position of a segment: the least integer strictly above the left
      tick, which is what `Math.ceil(left.tick + Number.MIN_VALUE)` aims at. */
  function Start(lt: real): int {
    lt.Floor + 1
  }

  /** The segments from stop `k` onwards, concatenated. */
  function Segments(def: seq<Stop<seq<int>>>, k: nat): seq<seq<int>>
    requires Spans(def) && ColorStops(def) && k <= |def| - 1
    decreases |def| - 1 - k
  {
    if k == |def| - 1 then []
    else
      var left := def[k];
      var right := def[k + 1];
      Segment(left.rgba, right.rgba, left.tick, right.tick, Start(left.tick)) + Segments(def, k + 1)
  }

  /** The segments from stop `k` cover the positions above its tick up to 255, once each. */
  lemma {:induction false} SegmentsLength(def: seq<Stop<seq<int>>>, k: nat)
    requires Spans(def) && ColorStops(def) && k <= |def| - 1
    ensures |Segments(def, k)| == 255 - def[k].tick.Floor
    decreases |def| - 1 - k
  {
    if k < |def| - 1 {
      SegmentsLength(def, k + 1);
    }
  }

  /** Position `i` above the tick of stop `k0` sits, inside the segments from
      `k0`, in the segment whose ticks bracket it, at the mix of its two stops. */
  lemma {:induction false} SegmentsEntry(def: seq<Stop<seq<int>>>, k0: nat, k: nat, i: int)
    requires Spans(def) && ColorStops(def) && k0 <= k < |def| - 1
    requires def[k].tick < i as real && i as real <= def[k + 1].tick
    ensures 0 <= i - 1 - def[k0].tick.Floor < |Segments(def, k0)|
    ensures Segments(def, k0)[i - 1 - def[k0].tick.Floor]
            == Mix(def[k].rgba, def[k + 1].rgba, Frac(i, def[k].tick, def[k + 1].tick))
  {
    SegmentsEntryFirst(def, k, i);
    if k0 != k {
      SegmentsDrop(def, k0, k);
      var g := def[k].tick.Floor - def[k0].tick.Floor;
      assert Segments(def, k0)[g..][i - 1 - def[k].tick.Floor] == Segments(def, k0)[i - 1 - def[k0].tick.Floor];
      Chain(Segments(def, k0)[i - 1 - def[k0].tick.Floor],
            Segments(def, k)[i - 1 - def[k].tick.Floor],
            Mix(def[k].rgba, def[k + 1].rgba, Frac(i, def[k].tick, def[k + 1].tick)));
    }
  }

  /** Dropping from the segments of stop `k0` the positions up to the tick
      of a later stop `k` leaves the segments of `k`. */
  lemma {:induction false} SegmentsDrop(def: seq<Stop<seq<int>>>, k0: nat, k: nat)
    requires Spans(def) && ColorStops(def) && k0 <= k <= |def| - 1
    ensures 0 <= def[k].tick.Floor - def[k0].tick.Floor <= |Segments(def, k0)|
    ensures Segments(def, k0)[def[k].tick.Floor - def[k0].tick.Floor..] == Segments(def, k)
    decreases k - k0
  {
    SegmentsLength(def, k0);
    if k0 != k {
      SegmentsDrop(def, k0 + 1, k);
      SegmentsStep(def, k0);
      SegmentsLength(def, k0 + 1);
      DropAppend(Segment(def[k0].rgba, def[k0 + 1].rgba, def[k0].tick, def[k0 + 1].tick, Start(def[k0].tick)),
                 Segments(def, k0 + 1), def[k].tick.Floor - def[k0 + 1].tick.Floor);
    }
  }

  lemma DropAppend<T>(a: seq<T>, b: seq<T>, g: int)
    requires 0 <= g <= |b|
    ensures (a + b)[|a| + g..] == b[g..]
  {
  }

  /** A position within the first segment from stop `k`. */
  lemma SegmentsEntryFirst(def: seq<Stop<seq<int>>>, k: nat, i: int)
    requires Spans(def) && ColorStops(def) && k < |def| - 1
    requires def[k].tick < i as real && i as real <= def[k + 1].tick
    ensures 0 <= i - 1 - def[k].tick.Floor < |Segments(def, k)|
    ensures Segments(def, k)[i - 1 - def[k].tick.Floor]
            == Mix(def[k].rgba, def[k + 1].rgba, Frac(i, def[k].tick, def[k + 1].tick))
  {
    var seg := Segment(def[k].rgba, def[k + 1].rgba, def[k].tick, def[k + 1].tick, Start(def[k].tick));
    var rest := Segments(def, k + 1);
    SegmentsStep(def, k);
    var j := i - 1 - def[k].tick.Floor;
    SegmentAt(def[k].rgba, def[k + 1].rgba, def[k].tick, def[k + 1].tick, Start(def[k].tick), j);
    assert (seg + rest)[j] == seg[j];
  }

  /** The segments from stop `k` are its own segment, one entry per integer
      in (left tick, right tick], followed by the segments from `k + 1`. */
  lemma SegmentsStep(def: seq<Stop<seq<int>>>, k: nat)
    requires Spans(def) && ColorStops(def) && k < |def| - 1
    ensures var seg := Segment(def[k].rgba, def[k + 1].rgba, def[k].tick, def[k + 1].tick, Start(def[k].tick));
            && Segments(def, k) == seg + Segments(def, k + 1)
            && |seg| == def[k + 1].tick.Floor - def[k].tick.Floor
            && def[k + 1].tick <= 255.0
  {
  }

  /** The table the loop of `parseColors` builds: the first stop's colour, then
      every segment in order (the start of a segment read as "strictly above
      the left tick"). */
  function Table(def: seq<Stop<seq<int>>>): (table: seq<seq<int>>)
    requires Spans(def) && ColorStops(def)
    ensures |table| == 256
    ensures table[0] == def[0].rgba
  {
    SegmentsLength(def, 0);
    [def[0].rgba] + Segments(def, 0)
  }

  lemma TableEntryAt(def: seq<Stop<seq<int>>>, k: nat, i: int)
    requires Spans(def) && ColorStops(def) && 1 <= i < 256 && k < |def| - 1
    requires def[k].tick < i as real && i as real <= def[k + 1].tick
    ensures |Table(def)| == 256
    ensures Table(def)[i] == Mix(def[k].rgba, def[k + 1].rgba, Frac(i, def[k].tick, def[k + 1].tick))
  {
    SegmentsLength(def, 0);
    SegmentsEntry(def, 0, k, i);
    assert Table(def)[i] == Segments(def, 0)[i - 1];
  }

  /** A segment holding position `i` (1..255) exists for stops spanning 0..255. */
  lemma {:induction false} BracketFrom(def: seq<Stop<seq<int>>>, i: int, k: nat) returns (b: nat)
    requires Spans(def) && 1 <= i <= 255 && k < |def| - 1 && def[k].tick < i as real
    ensures k <= b < |def| - 1 && def[b].tick < i as real <= def[b + 1].tick
    decreases |def| - k
  {
    if i as real <= def[k + 1].tick {
      b := k;
    } else {
      b := BracketFrom(def, i, k + 1);
    }
  }

  /** Entry `i` (1..255) of the table is a colour, being the mix of the two
      colours whose ticks bracket it. */
  lemma BracketColor(def: seq<Stop<seq<int>>>, i: int)
    requires Spans(def) && ColorStops(def) && 1 <= i <= 255
    ensures |Table(def)| == 256 && IsColor(Table(def)[i])
  {
    var k := BracketFrom(def, i, 0);
    TableEntryAt(def, k, i);
  }

  /** For any stops spanning 0..255: the table has exactly 256 entries, entry
      0 is the first stop and entry 255 the last, and every other entry is the
      mix of the two stops whose ticks bracket it, so each of its channels lies
      between theirs. */
  lemma TableEntries(def: seq<Stop<seq<int>>>)
    requires Spans(def) && ColorStops(def)
    ensures |Table(def)| == 256
    ensures Table(def)[0] == def[0].rgba && Table(def)[255] == def[|def| - 1].rgba
    ensures forall i, k :: 1 <= i < 256 && 0 <= k < |def| - 1 && def[k].tick < i as real && i as real <= def[k + 1].tick ==>
              && 0.0 < Frac(i, def[k].tick, def[k + 1].tick)
              && Frac(i, def[k].tick, def[k + 1].tick) <= 1.0
              && Table(def)[i] == Mix(def[k].rgba, def[k + 1].rgba, Frac(i, def[k].tick, def[k + 1].tick))
              && ChannelsBetween(Table(def)[i], def[k].rgba, def[k + 1].rgba)
    ensures AreColors(Table(def))
  {
    TableEnds(def);
    TableMixes(def);
    TableColors(def);
  }

  lemma TableEnds(def: seq<Stop<seq<int>>>)
    requires Spans(def) && ColorStops(def)
    ensures |Table(def)| == 256
    ensures Table(def)[0] == def[0].rgba && Table(def)[255] == def[|def| - 1].rgba
  {
    var k := |def| - 2;
    TableEntryAt(def, k, 255);
    assert Frac(255, def[k].tick, def[k + 1].tick) == 1.0;
  }

  lemma TableMixes(def: seq<Stop<seq<int>>>)
    requires Spans(def) && ColorStops(def)
    ensures |Table(def)| == 256
    ensures forall i, k :: 1 <= i < 256 && 0 <= k < |def| - 1 && def[k].tick < i as real && i as real <= def[k + 1].tick ==>
              Table(def)[i] == Mix(def[k].rgba, def[k + 1].rgba, Frac(i, def[k].tick, def[k + 1].tick))
  {
    SegmentsLength(def, 0);
    forall i, k | 1 <= i < 256 && 0 <= k < |def| - 1 && def[k].tick < i as real && i as real <= def[k + 1].tick
      ensures Table(def)[i] == Mix(def[k].rgba, def[k + 1].rgba, Frac(i, def[k].tick, def[k + 1].tick))
    {
      TableEntryAt(def, k, i);
    }
  }

  lemma TableColors(def: seq<Stop<seq<int>>>)
    requires Spans(def) && ColorStops(def)
    ensures |Table(def)| == 256 && AreColors(Table(def))
  {
    SegmentsLength(def, 0);
    forall i | 1 <= i < 256
      ensures IsColor(Table(def)[i])
    {
      BracketColor(def, i);
    }
  }

  /** The segment that holds position `i` (1..255) of a ramp of `n` evenly spaced stops. */
  function SegmentIndex(i: int, n: int): (k: int)
    requires n >= 2 && 1 <= i <= 255
    ensures 0 <= k < n - 1
    ensures Tick(k, n) < i as real <= Tick(k + 1, n)
  {
    var k := (i * (n - 1) - 1) / 255;
    assert 255 * k <= i * (n - 1) - 1 < 255 * k + 255;
    assert i * (n - 1) <= 255 * (n - 1);
    TickBelow(k, n, i);
    TickBelow(k + 1, n, i);
    k
  }

  /** Reference definition of entry `i` of an evenly spaced ramp, without the
      loop: the mix of the two stops whose ticks bracket `i`, at the fraction
      of the way between them. */
  function RampEntry(cs: seq<seq<int>>, i: int): seq<int>
    requires |cs| >= 2 && AreColors(cs) && 0 <= i <= 255
  {
    if i == 0 then cs[0]
    else
      var n := |cs|;
      var k := SegmentIndex(i, n);
      Mix(cs[k], cs[k + 1], Frac(i, Tick(k, n), Tick(k + 1, n)))
  }

  /** The table built from evenly spaced stops is the reference ramp. */
  lemma EvenTableIsReference(cs: seq<seq<int>>)
    requires |cs| >= 2 && AreColors(cs)
    ensures Spans(EvenStops(cs)) && ColorStops(EvenStops(cs))
    ensures |Table(EvenStops(cs))| == 256
    ensures forall i :: 0 <= i < 256 ==> Table(EvenStops(cs))[i] == RampEntry(cs, i)
  {
    var def := EvenStops(cs);
    EvenStopsSpan(cs);
    TableEnds(def);
    forall i | 1 <= i < 256
      ensures Table(def)[i] == RampEntry(cs, i)
    {
      var k := SegmentIndex(i, |cs|);
      assert def[k].tick < i as real && i as real <= def[k + 1].tick;
      TableEntryAt(def, k, i);
    }
  }

  /** `parseColors`: a ramp of evenly spaced stops, or `None` when the text
      does not have the ramp shape or one of its pieces is not a colour. */
  function ParseColors(s: string): (table: Option<seq<seq<int>>>)
    ensures table.Some? <==> RampPattern(Split(s, '-')) && AllColors(Split(s, '-'))
    ensures table.Some? ==> |table.value| == 256 && AreColors(table.value)
  {
    RampOf(Split(s, '-'))
  }

  /** Every piece parses as a colour. */
  predicate AllColors(tokens: seq<string>) {
    forall i :: 0 <= i < |tokens| ==> ParseColor(tokens[i]).Some?
  }

  /** The ramp of the pieces of a text split at its dashes: defined exactly
      when the pieces have the ramp shape and all parse, and then 256 colours
      from the first piece's colour to the last one's. */
  function RampOf(tokens: seq<string>): (table: Option<seq<seq<int>>>)
    ensures table.Some? <==> RampPattern(tokens) && AllColors(tokens)
    ensures table.Some? ==>
              && |table.value| == 256
              && AreColors(table.value)
              && table.value[0] == ParseColor(tokens[0]).value
              && table.value[255] == ParseColor(tokens[|tokens| - 1]).value
  {
    if RampPattern(tokens) && AllColors(tokens) then Some(EvenRamp(tokens)) else None
  }

  /** The evenly spaced table of pieces that all parse. */
  function EvenRamp(tokens: seq<string>): (table: seq<seq<int>>)
    requires |tokens| >= 2 && forall i :: 0 <= i < |tokens| ==> ParseColor(tokens[i]).Some?
    ensures |table| == 256 && AreColors(table)
    ensures table[0] == ParseColor(tokens[0]).value
    ensures table[255] == ParseColor(tokens[|tokens| - 1]).value
  {
    var cs := TokenColors(tokens);
    EvenTable(cs);
    var table := Table(EvenStops(cs));
    Chain(table[0], cs[0], ParseColor(tokens[0]).value);
    Chain(table[255], cs[|cs| - 1], ParseColor(tokens[|tokens| - 1]).value);
    table
  }

  /** Equality is transitive; stated for any type, so that the solver joins
      two equal colours without comparing them channel by channel. */
  lemma Chain<T>(x: T, y: T, z: T)
    requires x == y && y == z
    ensures x == z
  {
  }

  /** The colours of pieces that all parse, in order. */
  function TokenColors(tokens: seq<string>): (cs: seq<seq<int>>)
    requires forall i :: 0 <= i < |tokens| ==> ParseColor(tokens[i]).Some?
    ensures |cs| == |tokens| && AreColors(cs)
    ensures forall i :: 0 <= i < |tokens| ==> cs[i] == ParseColor(tokens[i]).value
  {
    seq(|tokens|, i requires 0 <= i < |tokens| => ParseColor(tokens[i]).value)
  }

  /** The evenly spaced table of at least two colours: 256 colours from the
      first to the last. */
  lemma EvenTable(cs: seq<seq<int>>)
    requires |cs| >= 2 && AreColors(cs)
    ensures Spans(EvenStops(cs)) && ColorStops(EvenStops(cs))
    ensures |Table(EvenStops(cs))| == 256 && AreColors(Table(EvenStops(cs)))
    ensures Table(EvenStops(cs))[0] == cs[0] && Table(EvenStops(cs))[255] == cs[|cs| - 1]
  {
    EvenStopsSpan(cs);
    TableEntries(EvenStops(cs));
  }

  /** The colours of a well-formed ramp text, in order. */
  function StopColors(s: string): (cs: seq<seq<int>>)
    requires ParseColors(s).Some?
    ensures |cs| >= 2 && AreColors(cs)
  {
    var tokens := Split(s, '-');
    seq(|tokens|, i requires 0 <= i < |tokens| => ParseColor(tokens[i]).value)
  }

  /** A well-formed ramp text yields, at every index, the reference entry of
      its colours. */
  lemma ParseColorsIsReference(s: string)
    requires ParseColors(s).Some?
    ensures forall i :: 0 <= i < 256 ==> ParseColors(s).value[i] == RampEntry(StopColors(s), i)
  {
    EvenTableIsReference(StopColors(s));
  }

  lemma HexHasNoDash(a: string)
    requires IsHex(a)
    ensures '-' !in a
  {
  }

  lemma SplitTwo(a: string, b: string)
    requires '-' !in a && '-' !in b
    ensures Split(a + "-" + b, '-') == [a, b]
  {
    SplitJoin([a, b], '-');
    assert [a, b][1..] == [b];
    assert Join([a, b], '-') == a + "-" + b;
  }

  /** Two colours of at least three digits joined by a dash make a two-stop
      ramp from the first to the second. */
  lemma RampOfTwo(a: string, b: string)
    requires |a| >= 3 && |b| >= 3 && ParseColor(a).Some? && ParseColor(b).Some?
    ensures ParseColors(a + "-" + b).Some?
    ensures StopColors(a + "-" + b) == [ParseColor(a).value, ParseColor(b).value]
    ensures ParseColors(a + "-" + b).value[0] == ParseColor(a).value
    ensures ParseColors(a + "-" + b).value[255] == ParseColor(b).value
  {
    HexHasNoDash(a);
    HexHasNoDash(b);
    SplitTwo(a, b);
    assert RampPattern([a, b]);
  }

  /** Default ramp of elevation and curvature: black to white. */
  const GreyRamp: string := "000000-ffffff"

  /** Default ramp of slope: white to black. */
  const InvertedGreyRamp: string := "ffffff-000000"

  /** Default ramp of hillshade: transparent to opaque black. */
  const ShadeRamp: string := "00000000-000000ff"

  /** The default ramps are well formed and run from their first colour to their second. */
  lemma DefaultRampsParse()
    ensures ParseColors(GreyRamp).Some? && ParseColors(InvertedGreyRamp).Some? && ParseColors(ShadeRamp).Some?
    ensures ParseColors(GreyRamp).value[0] == [0, 0, 0, 255]
    ensures ParseColors(GreyRamp).value[255] == [255, 255, 255, 255]
    ensures ParseColors(InvertedGreyRamp).value[0] == [255, 255, 255, 255]
    ensures ParseColors(InvertedGreyRamp).value[255] == [0, 0, 0, 255]
    ensures ParseColors(ShadeRamp).value[0] == [0, 0, 0, 0]
    ensures ParseColors(ShadeRamp).value[255] == [0, 0, 0, 255]
  {
    GreyRampEnds();
    InvertedGreyRampEnds();
    ShadeRampEnds();
  }

  lemma GreyRampEnds()
    ensures ParseColors(GreyRamp).Some?
    ensures StopColors(GreyRamp) == [[0, 0, 0, 255], [255, 255, 255, 255]]
    ensures ParseColors(GreyRamp).value[0] == [0, 0, 0, 255]
    ensures ParseColors(GreyRamp).value[255] == [255, 255, 255, 255]
  {
    BlackAndWhite();
    assert GreyRamp == "000000" + "-" + "ffffff";
    RampOfTwo("000000", "ffffff");
  }

  lemma InvertedGreyRampEnds()
    ensures ParseColors(InvertedGreyRamp).Some?
    ensures ParseColors(InvertedGreyRamp).value[0] == [255, 255, 255, 255]
    ensures ParseColors(InvertedGreyRamp).value[255] == [0, 0, 0, 255]
  {
    BlackAndWhite();
    assert InvertedGreyRamp == "ffffff" + "-" + "000000";
    RampOfTwo("ffffff", "000000");
  }

  lemma ShadeRampEnds()
    ensures ParseColors(ShadeRamp).Some?
    ensures ParseColors(ShadeRamp).value[0] == [0, 0, 0, 0]
    ensures ParseColors(ShadeRamp).value[255] == [0, 0, 0, 255]
  {
    assert ParseColor("00000000") == Some([0, 0, 0, 0]);
    assert ParseColor("000000ff") == Some([0, 0, 0, 255]);
    assert ShadeRamp == "00000000" + "-" + "000000ff";
    RampOfTwo("00000000", "000000ff");
  }

  lemma BlackAndWhite()
    ensures ParseColor("000000") == Some([0, 0, 0, 255])
    ensures ParseColor("ffffff") == Some([255, 255, 255, 255])
    ensures ParseColor("000") == Some([0, 0, 0, 255])
    ensures ParseColor("fff") == Some([255, 255, 255, 255])
  {
  }

  /** The black-to-white ramp is mid grey at index 128. */
  lemma GreyRampMidpoint()
    ensures ParseColors(GreyRamp).Some?
    ensures ParseColors(GreyRamp).value[128] == [128, 128, 128, 255]
  {
    GreyRampEnds();
    ParseColorsIsReference(GreyRamp);
    MidGrey(StopColors(GreyRamp));
  }

  lemma MidGrey(cs: seq<seq<int>>)
    requires cs == [[0, 0, 0, 255], [255, 255, 255, 255]]
    ensures RampEntry(cs, 128) == [128, 128, 128, 255]
  {
    assert Tick(0, 2) == 0.0 && Tick(1, 2) == 255.0;
    var t := Frac(128, 0.0, 255.0);
    assert t == 128.0 / 255.0;
    assert MixChannel(0, 255, t) == 128;
    assert MixChannel(255, 255, t) == 255;
    assert RampEntry(cs, 128) == Mix(cs[0], cs[1], t);
  }

  // ---------------------------------------------------------------------
  // The loop as written, with two departures from the reading above.

  /** What `parseColors` as written ends in: `null`, a table whose entries
      may be `null`, or a TypeError thrown from the loop. */
  datatype RampOutcome = Null | Built(entries: seq<Option<seq<int>>>) | Thrown

  /** `Math.ceil(tick + Number.MIN_VALUE)` evaluated in doubles: the nudge
      survives only at tick 0; for a positive tick the sum rounds back to the
      tick, so an integer tick is its own start and is emitted a second time. */
  function IeeeStart(lt: real): int {
    if lt == 0.0 then 1 else -((-lt).Floor)
  }

  predicate NullableColorStops(def: seq<Stop<Option<seq<int>>>>) {
    forall k :: 0 <= k < |def| && def[k].rgba.Some? ==> IsColor(def[k].rgba.value)
  }

  function Lift(seg: seq<seq<int>>): (r: seq<Option<seq<int>>>)
    ensures |r| == |seg|
  {
    seq(|seg|, j requires 0 <= j < |seg| => Some(seg[j]))
  }

  /** The segments as written: an empty segment never runs its body; a
      non-empty one whose left or right colour is `null` throws on
      `left.rgba.map` or `right.rgba[j]` (`None` here). */
  function SegmentsAsWritten(def: seq<Stop<Option<seq<int>>>>, k: nat): Option<seq<Option<seq<int>>>>
    requires Spans(def) && NullableColorStops(def) && k <= |def| - 1
    decreases |def| - 1 - k
  {
    if k == |def| - 1 then Some([])
    else
      var left := def[k];
      var right := def[k + 1];
      var from := IeeeStart(left.tick);
      var rest := SegmentsAsWritten(def, k + 1);
      if right.tick.Floor < from then rest
      else if left.rgba.None? || right.rgba.None? || rest.None? then None
      else Some(Lift(Segment(left.rgba.value, right.rgba.value, left.tick, right.tick, from)) + rest.value)
  }

  /** The loop as written throws only on a `null` colour: when every stop
      from `k` on is present, the segments from `k` on are built. */
  lemma {:induction false} AllPresentBuilds(def: seq<Stop<Option<seq<int>>>>, k: nat)
    requires Spans(def) && NullableColorStops(def) && k <= |def| - 1
    ensures (forall j :: k <= j < |def| ==> def[j].rgba.Some?) ==> SegmentsAsWritten(def, k).Some?
    decreases |def| - 1 - k
  {
    if k < |def| - 1 {
      AllPresentBuilds(def, k + 1);
    }
  }

  /** `parseColors` as written. Its null check `def.find((a) => a === null)`
      returns the `null` it finds, which is falsy, so it never rejects: a
      piece of 5, 7 or 9+ digits passes the shape test, parses to `null`,
      and reaches the loop, which throws when a non-empty segment reads it. */
  function ParseColorsAsWritten(s: string): (r: RampOutcome)
    ensures r.Null? <==> !RampPattern(Split(s, '-'))
    ensures r.Thrown? ==> !AllColors(Split(s, '-'))
  {
    var tokens := Split(s, '-');
    if !RampPattern(tokens) then Null
    else
      var def := EvenStops(seq(|tokens|, i requires 0 <= i < |tokens| => ParseColor(tokens[i])));
      EvenStopsSpan(seq(|tokens|, i requires 0 <= i < |tokens| => ParseColor(tokens[i])));
      AllPresentBuilds(def, 0);
      match SegmentsAsWritten(def, 0)
      case None => Thrown
      case Some(rest) => Built([def[0].rgba] + rest)
  }

  /** Lift(a + b) is Lift(a) + Lift(b). */
  lemma LiftAppend(a: seq<seq<int>>, b: seq<seq<int>>)
    ensures Lift(a + b) == Lift(a) + Lift(b)
  {
  }

  /** The stops with every colour present. */
  function Present(def: seq<Stop<seq<int>>>): (lifted: seq<Stop<Option<seq<int>>>>)
    ensures |lifted| == |def|
    ensures forall k :: 0 <= k < |def| ==> lifted[k] == Stop(Some(def[k].rgba), def[k].tick)
  {
    seq(|def|, k requires 0 <= k < |def| => Stop(Some(def[k].rgba), def[k].tick))
  }

  /** No stop strictly between the first and the last sits on an integer. */
  predicate NoIntegerInteriorTick<C>(def: seq<Stop<C>>) {
    forall k :: 0 < k < |def| - 1 ==> def[k].tick.Floor as real != def[k].tick
  }

  /** Off integers (and at 0) the double-rounded start is the intended one. */
  lemma IeeeStartOffIntegers(lt: real)
    requires lt == 0.0 || lt.Floor as real != lt
    ensures IeeeStart(lt) == Start(lt)
  {
  }

  /** When every colour is present and no interior tick is an integer, the
      loop as written builds the intended segments. */
  lemma {:induction false} AsWrittenAgreesOffIntegers(def: seq<Stop<seq<int>>>, k: nat)
    requires Spans(def) && ColorStops(def) && NoIntegerInteriorTick(def) && k <= |def| - 1
    ensures Spans(Present(def)) && NullableColorStops(Present(def))
    ensures SegmentsAsWritten(Present(def), k) == Some(Lift(Segments(def, k)))
    decreases |def| - 1 - k
  {
    var lifted := Present(def);
    assert Spans(lifted);
    if k < |def| - 1 {
      AsWrittenAgreesOffIntegers(def, k + 1);
      IeeeStartOffIntegers(def[k].tick);
      var seg := Segment(def[k].rgba, def[k + 1].rgba, def[k].tick, def[k + 1].tick, Start(def[k].tick));
      LiftAppend(seg, Segments(def, k + 1));
      if def[k + 1].tick.Floor < Start(def[k].tick) {
        assert seg == [];
        assert seg + Segments(def, k + 1) == Segments(def, k + 1);
      }
    }
  }

  /** With two stops (every default ramp among them) the loop as written and
      the intended reading build the same table. */
  lemma AsWrittenAgreesOnTwoStops(s: string)
    requires ParseColors(s).Some? && |Split(s, '-')| == 2
    ensures ParseColorsAsWritten(s) == Built(Lift(ParseColors(s).value))
  {
    var tokens := Split(s, '-');
    var cs := StopColors(s);
    var stops := seq(|tokens|, i requires 0 <= i < |tokens| => ParseColor(tokens[i]));
    EvenStopsSpan(cs);
    var def := EvenStops(cs);
    assert Present(def) == EvenStops(stops);
    AsWrittenAgreesOffIntegers(def, 0);
    LiftAppend([def[0].rgba], Segments(def, 0));
  }

  /** A piece of hex digits whose length is not 3, 4, 6 or 8 (such as
      "fffff") passes the shape test; as written the loop then throws,
      where the intended check rejects the text so that callers fall back to
      their default ramp. */
  lemma AsWrittenRejectedTokenThrows(a: string, b: string)
    requires |a| >= 3 && IsHex(a) && ParseColor(a).None?
    requires |b| >= 3 && ParseColor(b).Some?
    ensures ParseColorsAsWritten(a + "-" + b) == Thrown
    ensures ParseColors(a + "-" + b) == None
  {
    HexHasNoDash(a);
    HexHasNoDash(b);
    SplitTwo(a, b);
    var tokens := [a, b];
    assert ParseColor(tokens[0]).None?;
    var stops := [None, ParseColor(b)];
    assert seq(2, i requires 0 <= i < 2 => ParseColor(tokens[i])) == stops;
    var def := EvenStops(stops);
    assert Tick(0, 2) == 0.0 && Tick(1, 2) == 255.0;
    assert def[0].tick == 0.0 && def[1].tick == 255.0;
    assert SegmentsAsWritten(def, 0) == None;
  }

  /** The five-digit piece "fffff" is such a piece. */
  lemma FiveDigitPieceThrows()
    ensures ParseColorsAsWritten("fffff" + "-" + "000") == Thrown
    ensures ParseColors("fffff" + "-" + "000") == None
  {
    AsWrittenRejectedTokenThrows("fffff", "000");
  }

  /** With four stops the interior ticks 85 and 170 are integers. As written
      each is emitted twice, so the table has 258 entries, and entry 255 is
      83/85 of the way from the third colour to the fourth where the intended
      table ends on the fourth. */
  lemma AsWrittenIntegerTicksRepeat(a: string, b: string, c: string, d: string)
    requires |a| >= 3 && |b| >= 3 && |c| >= 3 && |d| >= 3
    requires ParseColor(a).Some? && ParseColor(b).Some? && ParseColor(c).Some? && ParseColor(d).Some?
    ensures ParseColorsAsWritten(Join([a, b, c, d], '-')).Built?
    ensures |ParseColorsAsWritten(Join([a, b, c, d], '-')).entries| == 258
    ensures ParseColorsAsWritten(Join([a, b, c, d], '-')).entries[255]
            == Some(Mix(ParseColor(c).value, ParseColor(d).value, 83.0 / 85.0))
    ensures ParseColors(Join([a, b, c, d], '-')).Some?
    ensures ParseColors(Join([a, b, c, d], '-')).value[255] == ParseColor(d).value
  {
    FourPieces(a, b, c, d);
    AsWrittenFourPieces(a, b, c, d);
    assert AllColors([a, b, c, d]);
  }

  /** Four colours joined by dashes split back into the four pieces, which
      have the ramp shape. */
  lemma FourPieces(a: string, b: string, c: string, d: string)
    requires |a| >= 3 && |b| >= 3 && |c| >= 3 && |d| >= 3
    requires ParseColor(a).Some? && ParseColor(b).Some? && ParseColor(c).Some? && ParseColor(d).Some?
    ensures Split(Join([a, b, c, d], '-'), '-') == [a, b, c, d]
    ensures RampPattern([a, b, c, d])
  {
    HexHasNoDash(a);
    HexHasNoDash(b);
    HexHasNoDash(c);
    HexHasNoDash(d);
    SplitJoin([a, b, c, d], '-');
  }

  lemma AsWrittenFourPieces(a: string, b: string, c: string, d: string)
    requires |a| >= 3 && |b| >= 3 && |c| >= 3 && |d| >= 3
    requires ParseColor(a).Some? && ParseColor(b).Some? && ParseColor(c).Some? && ParseColor(d).Some?
    requires Split(Join([a, b, c, d], '-'), '-') == [a, b, c, d] && RampPattern([a, b, c, d])
    ensures ParseColorsAsWritten(Join([a, b, c, d], '-')).Built?
    ensures |ParseColorsAsWritten(Join([a, b, c, d], '-')).entries| == 258
    ensures ParseColorsAsWritten(Join([a, b, c, d], '-')).entries[255]
            == Some(Mix(ParseColor(c).value, ParseColor(d).value, 83.0 / 85.0))
  {
    var tokens := [a, b, c, d];
    var ca, cb, cc, cd := ParseColor(a).value, ParseColor(b).value, ParseColor(c).value, ParseColor(d).value;
    var stops := [Some(ca), Some(cb), Some(cc), Some(cd)];
    assert seq(|tokens|, i requires 0 <= i < |tokens| => ParseColor(tokens[i])) == stops;
    FourStopTicks();
    var def := EvenStops(stops);
    assert def == [Stop(Some(ca), 0.0), Stop(Some(cb), 85.0), Stop(Some(cc), 170.0), Stop(Some(cd), 255.0)];
    AsWrittenFourStops(def, ca, cb, cc, cd);
  }

  lemma FourStopTicks()
    ensures Tick(0, 4) == 0.0 && Tick(1, 4) == 85.0 && Tick(2, 4) == 170.0 && Tick(3, 4) == 255.0
  {
  }

  /** The segments as written of four colours at ticks 0, 85, 170 and 255:
      85 + 86 + 86 entries, entry 254 of them 83/85 of the way from the third
      colour to the fourth. */
  lemma AsWrittenFourStops(def: seq<Stop<Option<seq<int>>>>, ca: seq<int>, cb: seq<int>, cc: seq<int>, cd: seq<int>)
    requires IsColor(ca) && IsColor(cb) && IsColor(cc) && IsColor(cd)
    requires def == [Stop(Some(ca), 0.0), Stop(Some(cb), 85.0), Stop(Some(cc), 170.0), Stop(Some(cd), 255.0)]
    ensures Spans(def) && NullableColorStops(def)
    ensures SegmentsAsWritten(def, 0).Some?
    ensures |SegmentsAsWritten(def, 0).value| == 257
    ensures SegmentsAsWritten(def, 0).value[254] == Some(Mix(cc, cd, 83.0 / 85.0))
  {
    var s2 := Segment(cc, cd, 170.0, 255.0, 170);
    var s1 := Segment(cb, cc, 85.0, 170.0, 85);
    var s0 := Segment(ca, cb, 0.0, 85.0, 1);
    assert IeeeStart(170.0) == 170 && IeeeStart(85.0) == 85 && IeeeStart(0.0) == 1;
    assert SegmentsAsWritten(def, 3) == Some([]);
    assert SegmentsAsWritten(def, 2) == Some(Lift(s2) + []);
    assert SegmentsAsWritten(def, 1) == Some(Lift(s1) + (Lift(s2) + []));
    assert SegmentsAsWritten(def, 0) == Some(Lift(s0) + (Lift(s1) + (Lift(s2) + [])));
    var entries := Lift(s0) + (Lift(s1) + (Lift(s2) + []));
    assert entries[254] == Lift(s2)[83];
    assert Frac(253, 170.0, 255.0) == 83.0 / 85.0;
    SegmentAt(cc, cd, 170.0, 255.0, 170, 83);
  }

  /** Black, white, black, white ("000-fff-000-fff"): entry 255 as written
      is the grey 249, where the intended table ends on white. */
  lemma AsWrittenBlackWhiteRamp(black: string, white: string)
    requires black == "000" && white == "fff"
    ensures ParseColorsAsWritten(Join([black, white, black, white], '-')).Built?
    ensures |ParseColorsAsWritten(Join([black, white, black, white], '-')).entries| == 258
    ensures ParseColorsAsWritten(Join([black, white, black, white], '-')).entries[255]
            == Some([249, 249, 249, 255])
    ensures ParseColors(Join([black, white, black, white], '-')).Some?
    ensures ParseColors(Join([black, white, black, white], '-')).value[255] == [255, 255, 255, 255]
  {
    BlackAndWhite();
    AsWrittenIntegerTicksRepeat(black, white, black, white);
    GreyAt(83.0 / 85.0);
  }

  /** 83/85 of the way from opaque black to opaque white is the grey 249. */
  lemma GreyAt(t: real)
    requires t == 83.0 / 85.0
    ensures Mix([0, 0, 0, 255], [255, 255, 255, 255], t) == [249, 249, 249, 255]
  {
    assert MixChannel(0, 255, t) == 249;
    assert MixChannel(255, 255, t) == 255;
  }
}

=== FILE: raster.dfy ===
/** The `DEM` class of lib/util.js: a row-major raster with its 3x3
    convolution engine. `convolve` and `convolveFn` walk the interior cells
    and hand each one's neighbourhood, in the order NW, N, NE, W, C, E, SW,
    S, SE, to a weighting or to an arbitrary cell function. */
module Raster {
  import opened Common

  /** A raster: `data[y * width + x]` is the cell in column x, row y. */
  datatype Dem<T> = Dem(data: seq<T>, width: int, height: int)

  predicate Valid<T>(d: Dem<T>) {
    d.width >= 0 && d.height >= 0 && |d.data| == d.width * d.height
  }

  /** A 3x3 neighbourhood (or a 3x3 kernel), north-west first, row by row. */
  datatype Nine<T> = Nine(nw: T, n: T, ne: T, w: T, c: T, e: T, sw: T, s: T, se: T)

  /** The nine entries in the order of the array the source builds. */
  function Entries<T>(q: Nine<T>): (es: seq<T>)
    ensures |es| == 9
  {
    [q.nw, q.n, q.ne, q.w, q.c, q.e, q.sw, q.s, q.se]
  }

  /** Row-major positions inside a `w` by `h` raster are valid indices. */
  lemma CellInRange(w: int, h: int, x: int, y: int)
    requires 0 <= x < w && 0 <= y < h
    ensures 0 <= y * w + x < w * h
  {
    MulMonotone(0, y, w);
    MulMonotone(y, h - 1, w);
    assert (h - 1) * w + w == h * w;
  }

  /** The cell in column x, row y. */
  function Cell<T>(d: Dem<T>, x: int, y: int): T
    requires Valid(d) && 0 <= x < d.width && 0 <= y < d.height
  {
    CellInRange(d.width, d.height, x, y);
    d.data[y * d.width + x]
  }

  /** `get(c, dx, dy)`: the entry `dx` across and `dy` down from index `c`,
      or `None` where the source reads `undefined` past either end. */
  function Get<T>(d: Dem<T>, c: int, dx: int, dy: int): (r: Option<T>)
    ensures r.Some? <==> 0 <= c + dx + dy * d.width < |d.data|
    ensures r.Some? ==> r.value == d.data[c + dx + dy * d.width]
  {
    var i := c + dx + dy * d.width;
    if 0 <= i < |d.data| then Some(d.data[i]) else None
  }

  /** From an inner cell, `get` reaches the neighbour at the offsets. */
  lemma GetNeighbour<T>(d: Dem<T>, x: int, y: int, dx: int, dy: int)
    requires Valid(d) && 1 <= x < d.width - 1 && 1 <= y < d.height - 1
    requires -1 <= dx <= 1 && -1 <= dy <= 1
    ensures Get(d, y * d.width + x, dx, dy) == Some(Cell(d, x + dx, y + dy))
  {
    CellInRange(d.width, d.height, x + dx, y + dy);
    assert y * d.width + x + dx + dy * d.width == (y + dy) * d.width + (x + dx);
  }

  /** The neighbourhood of the inner cell (x, y), read at the offsets the
      source adds to `i = y * w + x`. */
  function Window<T>(d: Dem<T>, x: int, y: int): Nine<T>
    requires Valid(d) && 1 <= x < d.width - 1 && 1 <= y < d.height - 1
  {
    var w := d.width;
    var i := y * w + x;
    CellInRange(w, d.height, x - 1, y - 1);
    CellInRange(w, d.height, x + 1, y + 1);
    assert (y - 1) * w + (x - 1) == i - 1 - w;
    assert (y + 1) * w + (x + 1) == i + 1 + w;
    Nine(d.data[i - 1 - w], d.data[i - w], d.data[i + 1 - w],
         d.data[i - 1], d.data[i], d.data[i + 1],
         d.data[i - 1 + w], d.data[i + w], d.data[i + 1 + w])
  }

  /** Entry k of a window is the cell k % 3 - 1 across and k / 3 - 1 down
      from its centre: north-west first, row by row. */
  lemma WindowCells<T>(d: Dem<T>, x: int, y: int, k: int)
    requires Valid(d) && 1 <= x < d.width - 1 && 1 <= y < d.height - 1
    requires 0 <= k < 9
    ensures Entries(Window(d, x, y))[k] == Cell(d, x + k % 3 - 1, y + k / 3 - 1)
  {
    var w := d.width;
    var dy := if k < 3 then -1 else if k < 6 then 0 else 1;
    var dx := k - 3 * (dy + 1) - 1;
    DivModUnique(k, 3, dy + 1, dx + 1);
    CellInRange(w, d.height, x + dx, y + dy);
    if dy == -1 {
      assert (y + dy) * w + (x + dx) == y * w + x + dx - w;
    } else if dy == 1 {
      assert (y + dy) * w + (x + dx) == y * w + x + dx + w;
    }
  }

  /** Width of the interior, or 0 when there is none. */
  function InnerWidth(w: int): nat {
    if w < 3 then 0 else w - 2
  }

  lemma DivBelow(k: int, a: int, b: int)
    requires a > 0 && 0 <= k < a * b
    ensures 0 <= k / a < b
  {
    if k / a >= b {
      MulMonotone(b, k / a, a);
    }
  }

  /** The cell function applied to the window of the k-th interior cell, in
      row-major order. */
  function InteriorAt<T, U>(d: Dem<T>, f: Nine<T> -> U, k: int): U
    requires Valid(d) && d.width >= 3 && d.height >= 3
    requires 0 <= k < (d.width - 2) * (d.height - 2)
  {
    DivBelow(k, d.width - 2, d.height - 2);
    f(Window(d, 1 + k % (d.width - 2), 1 + k / (d.width - 2)))
  }

  /** The raster `convolveFn(f)` returns: one cell per inner cell of `d`,
      `width - 2` by `height - 2`, row-major. */
  function Interior<T, U>(d: Dem<T>, f: Nine<T> -> U): (r: Dem<U>)
    requires Valid(d)
    ensures r.width == d.width - 2 && r.height == d.height - 2
    ensures |r.data| == InnerWidth(d.width) * InnerWidth(d.height)
    ensures d.width >= 2 && d.height >= 2 ==> Valid(r)
  {
    if d.width < 3 || d.height < 3 then
      Dem([], d.width - 2, d.height - 2)
    else
      var n := (d.width - 2) * (d.height - 2);
      MulMonotone(0, d.width - 2, d.height - 2);
      Dem(seq(n, k requires 0 <= k < n => InteriorAt(d, f, k)), d.width - 2, d.height - 2)
  }

  /** Cell (x, y) of the output comes from the window centred at input cell
      (x + 1, y + 1). */
  lemma InteriorCell<T, U>(d: Dem<T>, f: Nine<T> -> U, x: int, y: int)
    requires Valid(d) && 0 <= x < d.width - 2 && 0 <= y < d.height - 2
    ensures Valid(Interior(d, f))
    ensures Cell(Interior(d, f), x, y) == f(Window(d, x + 1, y + 1))
  {
    var a := d.width - 2;
    var k := y * a + x;
    CellInRange(a, d.height - 2, x, y);
    DivModUnique(k, a, y, x);
  }

  /** Two rasters of one shape combined cell by cell. */
  function Zip<A, B, C>(a: Dem<A>, b: Dem<B>, f: (A, B) -> C): (r: Dem<C>)
    requires |a.data| == |b.data|
    ensures r.width == a.width && r.height == a.height && |r.data| == |a.data|
    ensures forall k :: 0 <= k < |r.data| ==> r.data[k] == f(a.data[k], b.data[k])
  {
    Dem(seq(|a.data|, k requires 0 <= k < |a.data| => f(a.data[k], b.data[k])), a.width, a.height)
  }

  /** Cell (x, y) of a combined raster combines the two cells (x, y). */
  lemma ZipCell<A, B, C>(a: Dem<A>, b: Dem<B>, f: (A, B) -> C, x: int, y: int)
    requires Valid(a) && b.width == a.width && b.height == a.height && |b.data| == |a.data|
    requires 0 <= x < a.width && 0 <= y < a.height
    ensures Valid(b) && Valid(Zip(a, b, f))
    ensures Cell(Zip(a, b, f), x, y) == f(Cell(a, x, y), Cell(b, x, y))
  {
    CellInRange(a.width, a.height, x, y);
  }

  /** Some neighbour is no-data. */
  predicate AnyNoData(q: Nine<Num>) {
    exists k :: 0 <= k < 9 && Entries(q)[k].NoData?
  }

  /** The source's left-to-right sum of the nine weighted neighbours; a
      no-data neighbour, under any weight, makes it no-data. */
  function WeightedSum(q: Nine<Num>, m: Nine<real>): (r: Num)
    ensures r.NoData? <==> AnyNoData(q)
  {
    var r := Add(Add(Add(Add(Add(Add(Add(Add(
      Mul(q.nw, m.nw), Mul(q.n, m.n)), Mul(q.ne, m.ne)), Mul(q.w, m.w)), Mul(q.c, m.c)),
      Mul(q.e, m.e)), Mul(q.sw, m.sw)), Mul(q.s, m.s)), Mul(q.se, m.se));
    assert r.NoData? ==> AnyNoData(q) by {
      if r.NoData? {
        var es := Entries(q);
        if q.nw.NoData? { assert es[0].NoData?; }
        else if q.n.NoData? { assert es[1].NoData?; }
        else if q.ne.NoData? { assert es[2].NoData?; }
        else if q.w.NoData? { assert es[3].NoData?; }
        else if q.c.NoData? { assert es[4].NoData?; }
        else if q.e.NoData? { assert es[5].NoData?; }
        else if q.sw.NoData? { assert es[6].NoData?; }
        else if q.s.NoData? { assert es[7].NoData?; }
        else { assert es[8].NoData?; }
      }
    }
    r
  }

  /** Reference dot product of samples with weights, over the defined prefix. */
  function Dot(xs: seq<Num>, ws: seq<real>): real
    requires |xs| == |ws|
    requires forall k :: 0 <= k < |xs| ==> xs[k].Val?
  {
    if |xs| == 0 then 0.0
    else Dot(xs[..|xs| - 1], ws[..|ws| - 1]) + xs[|xs| - 1].v * ws[|ws| - 1]
  }

  lemma DotSnoc(xs: seq<Num>, ws: seq<real>, n: int)
    requires |xs| == |ws| && 0 <= n < |xs|
    requires forall k :: 0 <= k < |xs| ==> xs[k].Val?
    ensures Dot(xs[..n + 1], ws[..n + 1]) == Dot(xs[..n], ws[..n]) + xs[n].v * ws[n]
  {
    assert xs[..n + 1][..n] == xs[..n] && ws[..n + 1][..n] == ws[..n];
  }

  /** With every neighbour defined, the weighted sum is the dot product of
      the window with the kernel. */
  lemma WeightedSumIsDot(q: Nine<Num>, m: Nine<real>)
    requires forall k :: 0 <= k < 9 ==> Entries(q)[k].Val?
    ensures WeightedSum(q, m).Val?
    ensures WeightedSum(q, m).v == Dot(Entries(q), Entries(m))
  {
    var xs, ws := Entries(q), Entries(m);
    assert xs[..0] == [] && ws[..0] == [];
    DotSnoc(xs, ws, 0);
    DotSnoc(xs, ws, 1);
    DotSnoc(xs, ws, 2);
    DotSnoc(xs, ws, 3);
    DotSnoc(xs, ws, 4);
    DotSnoc(xs, ws, 5);
    DotSnoc(xs, ws, 6);
    DotSnoc(xs, ws, 7);
    DotSnoc(xs, ws, 8);
    assert xs[..9] == xs && ws[..9] == ws;
  }

  /** `convolve(m)`'s raster. */
  function Convolution(d: Dem<Num>, m: Nine<real>): Dem<Num>
    requires Valid(d)
  {
    Interior(d, q => WeightedSum(q, m))
  }

  /** A no-data neighbour anywhere in the window, even under a zero weight,
      makes the convolved cell no-data, and only then is it no-data: output
      cell (x, y) sees input columns x..x+2 and rows y..y+2. */
  lemma ConvolutionNoData(d: Dem<Num>, m: Nine<real>, x: int, y: int)
    requires Valid(d) && 0 <= x < d.width - 2 && 0 <= y < d.height - 2
    ensures Valid(Convolution(d, m))
    ensures Cell(Convolution(d, m), x, y).NoData? <==>
            exists i, j :: x <= i <= x + 2 && y <= j <= y + 2 && Cell(d, i, j).NoData?
  {
    InteriorCell(d, q => WeightedSum(q, m), x, y);
    WindowNoData(d, x, y);
  }

  /** Some entry of the window centred at (x + 1, y + 1) is no-data exactly
      when some cell in columns x..x+2, rows y..y+2 is. */
  lemma WindowNoData(d: Dem<Num>, x: int, y: int)
    requires Valid(d) && 0 <= x < d.width - 2 && 0 <= y < d.height - 2
    ensures AnyNoData(Window(d, x + 1, y + 1)) <==>
            exists i, j :: x <= i <= x + 2 && y <= j <= y + 2 && Cell(d, i, j).NoData?
  {
    if AnyNoData(Window(d, x + 1, y + 1)) {
      EntryNoData(d, x, y);
    }
    if exists i, j :: x <= i <= x + 2 && y <= j <= y + 2 && Cell(d, i, j).NoData? {
      var i, j :| x <= i <= x + 2 && y <= j <= y + 2 && Cell(d, i, j).NoData?;
      CellNoData(d, x, y, i, j);
    }
  }

  /** A no-data entry of the window is a no-data cell of its block. */
  lemma EntryNoData(d: Dem<Num>, x: int, y: int)
    requires Valid(d) && 0 <= x < d.width - 2 && 0 <= y < d.height - 2
    requires AnyNoData(Window(d, x + 1, y + 1))
    ensures exists i, j :: x <= i <= x + 2 && y <= j <= y + 2 && Cell(d, i, j).NoData?
  {
    var k :| 0 <= k < 9 && Entries(Window(d, x + 1, y + 1))[k].NoData?;
    DivModUnique(k, 3, k / 3, k % 3);
    WindowCells(d, x + 1, y + 1, k);
    assert Cell(d, x + k % 3, y + k / 3).NoData?;
  }

  /** A no-data cell of the block is a no-data entry of the window. */
  lemma CellNoData(d: Dem<Num>, x: int, y: int, i: int, j: int)
    requires Valid(d) && 0 <= x < d.width - 2 && 0 <= y < d.height - 2
    requires x <= i <= x + 2 && y <= j <= y + 2 && Cell(d, i, j).NoData?
    ensures AnyNoData(Window(d, x + 1, y + 1))
  {
    var k := (j - y) * 3 + (i - x);
    DivModUnique(k, 3, j - y, i - x);
    WindowCells(d, x + 1, y + 1, k);
    assert Entries(Window(d, x + 1, y + 1))[k].NoData?;
  }

  /** `convolveFn(f)`: the source's two nested loops over the inner rows and
      columns, pushing one result per cell. */
  method ConvolveFn<U>(d: Dem<Num>, f: Nine<Num> -> U) returns (r: Dem<U>)
    requires Valid(d)
    ensures r == Interior(d, f)
  {
    var dst: seq<U> := [];
    var w, h := d.width, d.height;
    var a := InnerWidth(w);
    var y := 1;
    while y < h - 1
      invariant 1 <= y && (h >= 2 ==> y <= h - 1) && (h < 3 ==> y == 1)
      invariant |dst| == (y - 1) * a
      invariant InteriorPrefix(d, f, dst)
    {
      var x := 1;
      while x < w - 1
        invariant 1 <= x && (w >= 2 ==> x <= w - 1) && (w < 3 ==> x == 1)
        invariant |dst| == (y - 1) * a + (x - 1)
        invariant InteriorPrefix(d, f, dst)
      {
        var q := Window(d, x, y);
        PushInterior(d, f, dst, x, y);
        dst := dst + [f(q)];
        x := x + 1;
      }
      assert |dst| == y * a by {
        if w >= 3 {
          assert x == w - 1 && (y - 1) * a + a == y * a;
        }
      }
      y := y + 1;
    }
    assert |dst| == InnerWidth(w) * InnerWidth(h) by {
      if h >= 3 {
        assert y == h - 1 && (y - 1) * a == a * (h - 2);
      }
    }
    r := Dem(dst, w - 2, h - 2);
    FinishInterior(d, f, dst);
  }

  /** `dst` holds the first `|dst|` cells of the interior, in row-major order. */
  ghost predicate InteriorPrefix<U>(d: Dem<Num>, f: Nine<Num> -> U, dst: seq<U>)
    requires Valid(d)
  {
    forall k :: 0 <= k < |dst| ==>
      d.width >= 3 && d.height >= 3 && k < (d.width - 2) * (d.height - 2) && dst[k] == InteriorAt(d, f, k)
  }

  /** Visiting inner cell (x, y) next extends the row-major prefix by one. */
  lemma PushInterior<U>(d: Dem<Num>, f: Nine<Num> -> U, dst: seq<U>, x: int, y: int)
    requires Valid(d) && InteriorPrefix(d, f, dst)
    requires 1 <= x < d.width - 1 && 1 <= y < d.height - 1
    requires |dst| == (y - 1) * (d.width - 2) + (x - 1)
    ensures InteriorPrefix(d, f, dst + [f(Window(d, x, y))])
  {
    NextInterior(d.width, d.height, x, y, |dst|);
    var dst' := dst + [f(Window(d, x, y))];
    forall k | 0 <= k < |dst'|
      ensures d.width >= 3 && d.height >= 3 && k < (d.width - 2) * (d.height - 2) && dst'[k] == InteriorAt(d, f, k)
    {
      if k < |dst| {
        assert dst'[k] == dst[k];
      }
    }
  }

  /** The next pushed cell sits at row-major position `(y - 1) * (w - 2) + (x - 1)`. */
  lemma NextInterior(w: int, h: int, x: int, y: int, k: int)
    requires 1 <= x < w - 1 && 1 <= y < h - 1 && k == (y - 1) * (w - 2) + (x - 1)
    ensures w >= 3 && h >= 3 && 0 <= k < (w - 2) * (h - 2)
    ensures 1 + k % (w - 2) == x && 1 + k / (w - 2) == y
  {
    CellInRange(w - 2, h - 2, x - 1, y - 1);
    DivModUnique(k, w - 2, y - 1, x - 1);
  }

  lemma FinishInterior<U>(d: Dem<Num>, f: Nine<Num> -> U, dst: seq<U>)
    requires Valid(d) && InteriorPrefix(d, f, dst)
    requires |dst| == InnerWidth(d.width) * InnerWidth(d.height)
    ensures Dem(dst, d.width - 2, d.height - 2) == Interior(d, f)
  {
  }

  /** `convolve(m)`: the same loops, each cell the weighted sum of its window. */
  method Convolve(d: Dem<Num>, m: Nine<real>) returns (r: Dem<Num>)
    requires Valid(d)
    ensures r == Convolution(d, m)
  {
    r := ConvolveFn(d, q => WeightedSum(q, m));
  }
}

=== FILE: transforms.dfy ===
/** The per-pixel logic of the transforms in lib/main.js: `elevation` maps
    decoded heights onto a ramp; `slope`, `curvature` and `hillshade` turn
    convolved derivatives into a clipped angle and then a ramp index;
    `contour` marks cells where the elevation band changes to the east or
    south. No-data always yields the fallback colour. The trigonometry that
    turns derivatives into angles is a function-valued parameter. */
module Transforms {
  import opened Common
  import opened Clip
  import opened Codec
  import opened Colors
  import opened Ramp
  import opened Raster

  /** North-to-south derivative kernel (`dzdy` in `hillshade`). */
  const NorthSouth: Nine<real> := Nine(0.25, 0.5, 0.25, 0.0, 0.0, 0.0, -0.25, -0.5, -0.25)

  /** West-to-east derivative kernel (`dzdx` in `hillshade`). */
  const EastWest: Nine<real> := Nine(-0.25, 0.0, 0.25, -0.5, 0.0, 0.5, -0.25, 0.0, 0.25)

  /** The kernel of `curvature`: centre minus the mean of its four edge neighbours. */
  const Laplacian: Nine<real> := Nine(0.0, -0.25, 0.0, -0.25, 1.0, -0.25, 0.0, -0.25, 0.0)

  /** The window of the plane `h + a * dx + b * dy` around its centre (y grows southwards). */
  function Plane(h: real, a: real, b: real): Nine<Num> {
    Nine(Val(h - a - b), Val(h - b), Val(h + a - b),
         Val(h - a), Val(h), Val(h + a),
         Val(h - a + b), Val(h + b), Val(h + a + b))
  }

  /** On a plane the derivative kernels measure twice the per-cell gradient
      (north minus south, east minus west) and the curvature kernel is zero. */
  lemma KernelsOnPlane(h: real, a: real, b: real)
    ensures WeightedSum(Plane(h, a, b), NorthSouth) == Val(-2.0 * b)
    ensures WeightedSum(Plane(h, a, b), EastWest) == Val(2.0 * a)
    ensures WeightedSum(Plane(h, a, b), Laplacian) == Val(0.0)
  {
  }

  /** What a transform writes at one pixel: the fallback colour, the ramp
      entry at an index, or nothing, because the index is `NaN` and the
      write throws. */
  datatype Paint = Fallback | Entry(index: int) | Undefined

  /** The four bytes written for a paint, if any: `colors[index]` exists only
      inside the table. */
  function Resolve(paint: Paint, colors: seq<seq<int>>, fallback: seq<int>): (c: Option<seq<int>>)
    ensures paint.Fallback? ==> c == Some(fallback)
    ensures paint.Entry? ==> (c.Some? <==> 0 <= paint.index < |colors|)
    ensures paint.Undefined? ==> c.None?
  {
    match paint
    case Fallback => Some(fallback)
    case Entry(i) => if 0 <= i < |colors| then Some(colors[i]) else None
    case Undefined => None
  }

  /** A rendered image, or `None` when some pixel's write throws. */
  function Render(paints: seq<Paint>, colors: seq<seq<int>>, fallback: seq<int>): (img: Option<seq<seq<int>>>)
    ensures img.Some? <==> forall k :: 0 <= k < |paints| ==> Resolve(paints[k], colors, fallback).Some?
    ensures img.Some? ==> |img.value| == |paints|
    ensures img.Some? ==> forall k :: 0 <= k < |paints| ==> img.value[k] == Resolve(paints[k], colors, fallback).value
  {
    if exists k :: 0 <= k < |paints| && Resolve(paints[k], colors, fallback).None? then None
    else Some(seq(|paints|, k requires 0 <= k < |paints| => Resolve(paints[k], colors, fallback).value))
  }

  /** Paints that are fallbacks or indices in 0..255. */
  predicate InRamp(paints: seq<Paint>) {
    forall k :: 0 <= k < |paints| ==> paints[k].Fallback? || (paints[k].Entry? && 0 <= paints[k].index <= 255)
  }

  /** With a 256-entry table every such paint is written, and the fallback
      pixels get exactly the fallback colour. */
  lemma RenderInRamp(paints: seq<Paint>, colors: seq<seq<int>>, fallback: seq<int>)
    requires InRamp(paints) && |colors| == 256
    ensures Render(paints, colors, fallback).Some?
    ensures forall k :: 0 <= k < |paints| && paints[k].Fallback? ==> Render(paints, colors, fallback).value[k] == fallback
    ensures forall k :: 0 <= k < |paints| && paints[k].Entry? ==> Render(paints, colors, fallback).value[k] == colors[paints[k].index]
  {
    forall k | 0 <= k < |paints|
      ensures Resolve(paints[k], colors, fallback).Some?
    {
      assert paints[k].Fallback? || (paints[k].Entry? && 0 <= paints[k].index <= 255);
    }
  }

  // ----- Ramp indices -----

  /** `Math.floor(0xff * (degree - low) / (high - low))` after clipping the
      degree into the interval spanned by `low` and `high`; with `low ==
      high` the quotient is `0 / 0`, `NaN`, and there is no index. */
  function DegreeIndex(raw: real, low: real, high: real): (ix: Option<int>)
    ensures ix.Some? <==> low != high
    ensures ix.Some? ==> 0 <= ix.value <= 255
    ensures ix.Some? ==> (ix.value == 255 <==> Clip.Clip(raw, low, high) == high)
  {
    if low == high then None
    else
      var degree := Clip.Clip(raw, low, high);
      var t := (degree - low) / (high - low);
      RatioBounds(degree - low, high - low);
      Some((255.0 * t).Floor)
  }

  /** A steeper input never gets a lower index when `low < high`, and never
      a higher one when the bounds are given the other way round. */
  lemma DegreeIndexMonotone(u: real, v: real, low: real, high: real)
    requires u <= v && low != high
    ensures low < high ==> DegreeIndex(u, low, high).value <= DegreeIndex(v, low, high).value
    ensures high < low ==> DegreeIndex(u, low, high).value >= DegreeIndex(v, low, high).value
  {
    ClipMonotone(u, v, low, high);
    var du, dv := Clip.Clip(u, low, high) - low, Clip.Clip(v, low, high) - low;
    var d := high - low;
    if d > 0.0 {
      DivMonotone(du, dv, d);
      FloorMonotone(255.0 * (du / d), 255.0 * (dv / d));
    } else {
      DivAntitone(du, dv, d);
      FloorMonotone(255.0 * (dv / d), 255.0 * (du / d));
    }
  }

  /** `hillshade` clips the index into 0..255 once more: `clip(NaN, 0, 255)`
      is still `NaN`, so there is still no index when `low == high`. */
  function ShadeIndex(raw: real, low: real, high: real): (ix: Option<int>) {
    match DegreeIndex(raw, low, high)
    case None => None
    case Some(i) => Some(Clip.Clip(i as real, 0.0, 255.0).Floor)
  }

  /** The second clip never changes the index. */
  lemma ShadeIndexIsDegreeIndex(raw: real, low: real, high: real)
    ensures ShadeIndex(raw, low, high) == DegreeIndex(raw, low, high)
  {
    var ix := DegreeIndex(raw, low, high);
    if ix.Some? {
      assert Clip.Clip(ix.value as real, 0.0, 255.0) == ix.value as real;
    }
  }

  /** The elevation index `clip(floor(0xff * (alt - low) / (high - low)), 0, 255)`.
      With `low == high` the quotient is an infinity of the sign of `alt -
      low`, clipped to 255 or 0, or `NaN` when `alt == low`. */
  function ElevationIndex(alt: real, low: real, high: real): (ix: Option<int>)
    ensures ix.Some? ==> 0 <= ix.value <= 255
    ensures ix.None? <==> low == high && alt == low
    ensures low < high && alt <= low ==> ix == Some(0)
    ensures low < high && alt >= high ==> ix == Some(255)
  {
    if low == high then
      if alt > low then Some(255) else if alt < low then Some(0) else None
    else
      var q := 255.0 * (alt - low) / (high - low);
      QuotientEnds(alt, low, high);
      Some(Clip.Clip(q.Floor as real, 0.0, 255.0).Floor)
  }

  lemma QuotientEnds(alt: real, low: real, high: real)
    requires low != high
    ensures low < high && alt <= low ==> 255.0 * (alt - low) / (high - low) <= 0.0
    ensures low < high && alt >= high ==> 255.0 * (alt - low) / (high - low) >= 255.0
  {
    if low < high && alt <= low {
      DivMonotone(255.0 * (alt - low), 0.0, high - low);
    }
    if low < high && alt >= high {
      DivMonotone(255.0 * (high - low), 255.0 * (alt - low), high - low);
    }
  }

  /** For `low < high`, a higher elevation never gets a lower index. */
  lemma ElevationIndexMonotone(u: real, v: real, low: real, high: real)
    requires u <= v && low < high
    ensures ElevationIndex(u, low, high).value <= ElevationIndex(v, low, high).value
  {
    var d := high - low;
    DivMonotone(255.0 * (u - low), 255.0 * (v - low), d);
    var qu, qv := 255.0 * (u - low) / d, 255.0 * (v - low) / d;
    FloorMonotone(qu, qv);
    ClipMonotone(qu.Floor as real, qv.Floor as real, 0.0, 255.0);
    FloorMonotone(Clip.Clip(qu.Floor as real, 0.0, 255.0), Clip.Clip(qv.Floor as real, 0.0, 255.0));
  }

  /** Between the bounds the index is the plain linear one, `255 (alt - low) / (high - low)`
      rounded down. */
  lemma ElevationIndexLinear(alt: real, low: real, high: real)
    requires low <= alt < high
    ensures ElevationIndex(alt, low, high) == Some((255.0 * (alt - low) / (high - low)).Floor)
  {
    var d := high - low;
    RatioBounds(alt - low, d);
    MulDivAssoc(255.0, alt - low, d);
  }

  function IndexPaint(ix: Option<int>): Paint {
    if ix.Some? then Entry(ix.value) else Undefined
  }

  // ----- elevation -----

  /** `src * 0.01 * gain`: the decoded centimetres in metres, scaled. */
  function Altitude(src: Num, gain: real): Num {
    Mul(Mul(src, 0.01), gain)
  }

  /** One pixel of `elevation`. */
  function ElevationPaint(p: Pixel, gain: real, low: real, high: real): (paint: Paint)
    ensures paint.Fallback? <==> DecodePixel(p).NoData?
    ensures paint.Entry? ==> 0 <= paint.index <= 255
    ensures paint.Undefined? ==> low == high
  {
    var alt := Altitude(DecodePixel(p), gain);
    if alt.NoData? then Fallback else IndexPaint(ElevationIndex(alt.v, low, high))
  }

  /** The `elevation` loop over an image. */
  function Elevation(image: seq<Pixel>, gain: real, low: real, high: real): (out: seq<Paint>)
    ensures |out| == |image|
    ensures forall k :: 0 <= k < |image| ==> (out[k].Fallback? <==> DecodePixel(image[k]).NoData?)
    ensures low != high ==> InRamp(out)
  {
    seq(|image|, k requires 0 <= k < |image| => ElevationPaint(image[k], gain, low, high))
  }

  /** A defined pixel between the bounds gets the index of its altitude's
      fraction of the way from `low` to `high`. */
  lemma ElevationPaintDefined(p: Pixel, gain: real, low: real, high: real)
    requires DecodePixel(p).Val? && low < high
    ensures var alt := DecodePixel(p).v * 0.01 * gain;
            ElevationPaint(p, gain, low, high) ==
              if alt <= low then Entry(0)
              else if alt >= high then Entry(255)
              else Entry((255.0 * (alt - low) / (high - low)).Floor)
  {
    var alt := DecodePixel(p).v * 0.01 * gain;
    assert Altitude(DecodePixel(p), gain) == Val(alt);
    AltitudePaint(alt, low, high);
  }

  /** The paint of a defined altitude: the ends below `low` and above
      `high`, the linear index in between. */
  lemma AltitudePaint(alt: real, low: real, high: real)
    requires low < high
    ensures IndexPaint(ElevationIndex(alt, low, high)) ==
              if alt <= low then Entry(0)
              else if alt >= high then Entry(255)
              else Entry((255.0 * (alt - low) / (high - low)).Floor)
  {
    if low < alt < high {
      ElevationIndexLinear(alt, low, high);
    }
  }

  // ----- slope, curvature and hillshade -----

  /** One cell of `slope`: the two derivatives scaled by the gain, and the
      angle `degree(ns, ew)` (`180 atan(hypot(ns, ew)) / PI` in the source). */
  function SlopePaint(ns: Num, ew: Num, gain: real, low: real, high: real, degree: (real, real) -> real): (paint: Paint)
    ensures paint.Fallback? <==> ns.NoData? || ew.NoData?
    ensures paint.Undefined? <==> !paint.Fallback? && low == high
    ensures paint.Entry? ==> 0 <= paint.index <= 255
  {
    var a, b := Mul(ns, gain), Mul(ew, gain);
    if a.NoData? || b.NoData? then Fallback else IndexPaint(DegreeIndex(degree(a.v, b.v), low, high))
  }

  /** One cell of `curvature`: the convolved value scaled by the gain, and
      the angle `degree(c)` (`180 atan(c) / PI` in the source). */
  function CurvaturePaint(c: Num, gain: real, low: real, high: real, degree: real -> real): (paint: Paint)
    ensures paint.Fallback? <==> c.NoData?
    ensures paint.Undefined? <==> !paint.Fallback? && low == high
    ensures paint.Entry? ==> 0 <= paint.index <= 255
  {
    var a := Mul(c, gain);
    if a.NoData? then Fallback else IndexPaint(DegreeIndex(degree(a.v), low, high))
  }

  /** One cell of `hillshade`: `shade(ns, ew)` is the angle in degrees
      between the surface normal and the light direction. */
  function ShadePaint(ns: Num, ew: Num, gain: real, low: real, high: real, shade: (real, real) -> real): (paint: Paint)
    ensures paint.Fallback? <==> ns.NoData? || ew.NoData?
    ensures paint.Undefined? <==> !paint.Fallback? && low == high
    ensures paint.Entry? ==> 0 <= paint.index <= 255
  {
    var a, b := Mul(ns, gain), Mul(ew, gain);
    if a.NoData? || b.NoData? then Fallback
    else
      ShadeIndexIsDegreeIndex(shade(a.v, b.v), low, high);
      IndexPaint(ShadeIndex(shade(a.v, b.v), low, high))
  }

  /** A raster of paints over the interior of `dem`, one per convolved cell. */
  function SlopeImage(dem: Dem<Num>, gain: real, low: real, high: real, degree: (real, real) -> real): (out: Dem<Paint>)
    requires Valid(dem)
    ensures out.width == dem.width - 2 && out.height == dem.height - 2
    ensures |out.data| == InnerWidth(dem.width) * InnerWidth(dem.height)
    ensures low != high ==> InRamp(out.data)
  {
    var ns, ew := Convolution(dem, NorthSouth), Convolution(dem, EastWest);
    Zip(ns, ew, (a, b) => SlopePaint(a, b, gain, low, high, degree))
  }

  function CurvatureImage(dem: Dem<Num>, gain: real, low: real, high: real, degree: real -> real): (out: Dem<Paint>)
    requires Valid(dem)
    ensures out.width == dem.width - 2 && out.height == dem.height - 2
    ensures |out.data| == InnerWidth(dem.width) * InnerWidth(dem.height)
    ensures low != high ==> InRamp(out.data)
  {
    var c := Convolution(dem, Laplacian);
    Dem(seq(|c.data|, i requires 0 <= i < |c.data| => CurvaturePaint(c.data[i], gain, low, high, degree)),
        c.width, c.height)
  }

  function ShadeImage(dem: Dem<Num>, gain: real, low: real, high: real, shade: (real, real) -> real): (out: Dem<Paint>)
    requires Valid(dem)
    ensures out.width == dem.width - 2 && out.height == dem.height - 2
    ensures |out.data| == InnerWidth(dem.width) * InnerWidth(dem.height)
    ensures low != high ==> InRamp(out.data)
  {
    var ns, ew := Convolution(dem, NorthSouth), Convolution(dem, EastWest);
    Zip(ns, ew, (a, b) => ShadePaint(a, b, gain, low, high, shade))
  }

  /** Some input cell in columns x..x+2, rows y..y+2 is no-data. */
  predicate NoDataNear(d: Dem<Num>, x: int, y: int)
    requires Valid(d) && 0 <= x < d.width - 2 && 0 <= y < d.height - 2
  {
    exists i, j :: x <= i <= x + 2 && y <= j <= y + 2 && Cell(d, i, j).NoData?
  }

  /** Output cell (x, y) of `slope` is the fallback exactly when its 3x3
      input window holds no-data, and otherwise an index in 0..255
      whenever `low != high`. */
  lemma SlopeFallbackWhere(dem: Dem<Num>, gain: real, low: real, high: real, degree: (real, real) -> real, x: int, y: int)
    requires Valid(dem) && 0 <= x < dem.width - 2 && 0 <= y < dem.height - 2
    ensures Valid(SlopeImage(dem, gain, low, high, degree))
    ensures Cell(SlopeImage(dem, gain, low, high, degree), x, y).Fallback? <==> NoDataNear(dem, x, y)
  {
    ConvolutionNoData(dem, NorthSouth, x, y);
    ConvolutionNoData(dem, EastWest, x, y);
    SlopeCell(dem, gain, low, high, degree, x, y);
  }

  /** Cell (x, y) of the `slope` image is the paint of the two
      derivatives at (x, y). */
  lemma SlopeCell(dem: Dem<Num>, gain: real, low: real, high: real, degree: (real, real) -> real, x: int, y: int)
    requires Valid(dem) && 0 <= x < dem.width - 2 && 0 <= y < dem.height - 2
    ensures Valid(Convolution(dem, NorthSouth)) && Valid(Convolution(dem, EastWest))
    ensures Valid(SlopeImage(dem, gain, low, high, degree))
    ensures Cell(SlopeImage(dem, gain, low, high, degree), x, y) ==
            SlopePaint(Cell(Convolution(dem, NorthSouth), x, y), Cell(Convolution(dem, EastWest), x, y), gain, low, high, degree)
  {
    var ns, ew := Convolution(dem, NorthSouth), Convolution(dem, EastWest);
    ZipCell(ns, ew, (a, b) => SlopePaint(a, b, gain, low, high, degree), x, y);
  }

  lemma CurvatureFallbackWhere(dem: Dem<Num>, gain: real, low: real, high: real, degree: real -> real, x: int, y: int)
    requires Valid(dem) && 0 <= x < dem.width - 2 && 0 <= y < dem.height - 2
    ensures Valid(CurvatureImage(dem, gain, low, high, degree))
    ensures Cell(CurvatureImage(dem, gain, low, high, degree), x, y).Fallback? <==> NoDataNear(dem, x, y)
  {
    ConvolutionNoData(dem, Laplacian, x, y);
    var c := Convolution(dem, Laplacian);
    CellInRange(c.width, c.height, x, y);
    assert Cell(CurvatureImage(dem, gain, low, high, degree), x, y) ==
           CurvaturePaint(Cell(c, x, y), gain, low, high, degree);
  }

  lemma ShadeFallbackWhere(dem: Dem<Num>, gain: real, low: real, high: real, shade: (real, real) -> real, x: int, y: int)
    requires Valid(dem) && 0 <= x < dem.width - 2 && 0 <= y < dem.height - 2
    ensures Valid(ShadeImage(dem, gain, low, high, shade))
    ensures Cell(ShadeImage(dem, gain, low, high, shade), x, y).Fallback? <==> NoDataNear(dem, x, y)
  {
    ConvolutionNoData(dem, NorthSouth, x, y);
    ConvolutionNoData(dem, EastWest, x, y);
    ShadeCell(dem, gain, low, high, shade, x, y);
  }

  /** Cell (x, y) of the `shade` image is the paint of the two
      derivatives at (x, y). */
  lemma ShadeCell(dem: Dem<Num>, gain: real, low: real, high: real, shade: (real, real) -> real, x: int, y: int)
    requires Valid(dem) && 0 <= x < dem.width - 2 && 0 <= y < dem.height - 2
    ensures Valid(Convolution(dem, NorthSouth)) && Valid(Convolution(dem, EastWest))
    ensures Valid(ShadeImage(dem, gain, low, high, shade))
    ensures Cell(ShadeImage(dem, gain, low, high, shade), x, y) ==
            ShadePaint(Cell(Convolution(dem, NorthSouth), x, y), Cell(Convolution(dem, EastWest), x, y), gain, low, high, shade)
  {
    var ns, ew := Convolution(dem, NorthSouth), Convolution(dem, EastWest);
    ZipCell(ns, ew, (a, b) => ShadePaint(a, b, gain, low, high, shade), x, y);
  }

  // ----- contour -----

  /** The contour level `k`, in the centimetres of an unnormalised raster:
      `k * interval` metres. */
  function Level(k: int, interval: real): real {
    Multiple(k, 100.0 * interval)
  }

  function Multiple(k: int, u: real): real {
    (k as real) * u
  }

  /** The value of `Math.floor(v * 0.01 / interval)`: a whole number, or,
      for an interval of 0, the infinity of the sample's sign. */
  datatype BandNumber = Finite(k: int) | Infinite(positive: bool)

  /** The band of a sample; `None` is `NaN`, which a no-data sample gives,
      and so does `0 / 0` for a zero sample over a zero interval. */
  function Band(v: Num, interval: real): (b: Option<BandNumber>)
    ensures b.None? <==> v.NoData? || (interval == 0.0 && v.v == 0.0)
    ensures interval != 0.0 && v.Val? ==> b == Some(Finite((v.v * 0.01 / interval).Floor))
  {
    if v.NoData? then None
    else if interval == 0.0 then
      if v.v > 0.0 then Some(Infinite(true)) else if v.v < 0.0 then Some(Infinite(false)) else None
    else Some(Finite((v.v * 0.01 / interval).Floor))
  }

  /** The contour cell function: 0 for a `NaN` centre band or when the
      centre's band equals both the east and the south band, else 0xff. A
      `NaN` east or south band never equals the centre's. */
  function ContourCell(q: Nine<Num>, interval: real): (r: int)
    ensures r == 0 || r == 255
    ensures interval != 0.0 ==>
              (r == 0 <==> q.c.NoData? || (q.e.Val? && q.s.Val? && Band(q.c, interval) == Band(q.e, interval) == Band(q.s, interval)))
  {
    var center, east, south := Band(q.c, interval), Band(q.e, interval), Band(q.s, interval);
    if center.None? then 0
    else if east.Some? && south.Some? && center.value == east.value && center.value == south.value then 0
    else 0xff
  }

  /** With an interval of 0 every band is an infinity, so a cell stays
      unmarked only where its centre is no-data or zero, or where the centre,
      east and south samples are all positive or all negative. */
  lemma ContourCellZeroInterval(q: Nine<Num>)
    ensures ContourCell(q, 0.0) == 0 <==>
              || q.c.NoData?
              || (q.c.Val? && q.c.v == 0.0)
              || (q.c.Val? && q.e.Val? && q.s.Val? && q.c.v > 0.0 && q.e.v > 0.0 && q.s.v > 0.0)
              || (q.c.Val? && q.e.Val? && q.s.Val? && q.c.v < 0.0 && q.e.v < 0.0 && q.s.v < 0.0)
  {
  }

  /** The cell reads only the centre, east and south neighbours. */
  lemma ContourCellLocal(q: Nine<Num>, q': Nine<Num>, interval: real)
    requires q.c == q'.c && q.e == q'.e && q.s == q'.s
    ensures ContourCell(q, interval) == ContourCell(q', interval)
  {
  }

  /** Some contour level lies above the lower of `a` and `b` and at or below the higher. */
  ghost predicate Straddles(a: real, b: real, interval: real) {
    exists k: int :: Min(a, b) < Level(k, interval) <= Max(a, b)
  }

  /** Two defined samples fall into different bands exactly when a contour
      level separates them. */
  lemma BandsDifferIffStraddles(a: real, b: real, interval: real)
    requires interval > 0.0
    ensures Band(Val(a), interval) != Band(Val(b), interval) <==> Straddles(a, b, interval)
  {
    if a <= b {
      BandsOrdered(a, b, interval);
    } else {
      BandsOrdered(b, a, interval);
    }
  }

  lemma BandsOrdered(a: real, b: real, interval: real)
    requires interval > 0.0 && a <= b
    ensures Band(Val(a), interval) != Band(Val(b), interval) <==> Straddles(a, b, interval)
  {
    var u := 100.0 * interval;
    BandScale(a, interval);
    BandScale(b, interval);
    FloorsDiffer(a, b, u);
    if Straddles(a, b, interval) {
      var k: int :| Min(a, b) < Level(k, interval) <= Max(a, b);
      assert a < Multiple(k, u) <= b;
    }
    if StraddlesScaled(a, b, u) {
      var k: int :| a < Multiple(k, u) <= b;
      assert Min(a, b) < Level(k, interval) <= Max(a, b);
    }
  }

  /** Some multiple of `u` lies above `a` and at or below `b`. */
  ghost predicate StraddlesScaled(a: real, b: real, u: real) {
    exists k: int :: a < Multiple(k, u) <= b
  }

  /** `a / u` and `b / u` have different floors exactly when a multiple of
      `u` separates `a` from `b`. */
  lemma FloorsDiffer(a: real, b: real, u: real)
    requires u > 0.0 && a <= b
    ensures (a / u).Floor != (b / u).Floor <==> StraddlesScaled(a, b, u)
  {
    var fa, fb := (a / u).Floor, (b / u).Floor;
    DivMonotone(a, b, u);
    if fa != fb {
      ScaleBelow(a, u, fa + 1);
      ScaleAtMost(fb, u, b);
      MulMonotoneReal((fa + 1) as real, fb as real, u);
      assert a < Multiple(fb, u) <= b;
    }
    if StraddlesScaled(a, b, u) {
      var k: int :| a < Multiple(k, u) <= b;
      LevelBetween(a, b, u, k);
    }
  }

  /** The band is the floor of the sample over the level spacing `100 interval`. */
  lemma BandScale(v: real, interval: real)
    requires interval > 0.0
    ensures Band(Val(v), interval) == Some(Finite((v / (100.0 * interval)).Floor))
  {
    assert v * 0.01 / interval == v / (100.0 * interval);
  }

  /** `a / u < n` means `a < n u`. */
  lemma ScaleBelow(a: real, u: real, n: int)
    requires u > 0.0 && a / u < n as real
    ensures a < (n as real) * u
  {
    assert (a / u) * u == a;
    assert (n as real - a / u) * u > 0.0;
  }

  /** `n <= b / u` means `n u <= b`. */
  lemma ScaleAtMost(n: int, u: real, b: real)
    requires u > 0.0 && (n as real) <= b / u
    ensures (n as real) * u <= b
  {
    assert (b / u) * u == b;
    assert (b / u - n as real) * u >= 0.0;
  }

  lemma LevelBetween(a: real, b: real, u: real, k: int)
    requires u > 0.0 && a < (k as real) * u <= b
    ensures (a / u).Floor < k <= (b / u).Floor
  {
    assert a / u < k as real by {
      assert (k as real) * u / u == k as real;
      DivMonotoneStrict(a, (k as real) * u, u);
    }
    assert k as real <= b / u by {
      assert (k as real) * u / u == k as real;
      DivMonotone((k as real) * u, b, u);
    }
  }

  /** Whether contour output marks input cell (x, y): a defined centre whose
      east or south neighbour is no-data or lies across a contour level. */
  ghost predicate ContourAt(d: Dem<Num>, x: int, y: int, interval: real)
    requires Valid(d) && 0 <= x < d.width - 1 && 0 <= y < d.height - 1
  {
    var c, e, s := Cell(d, x, y), Cell(d, x + 1, y), Cell(d, x, y + 1);
    c.Val? && (e.NoData? || s.NoData? || Straddles(c.v, e.v, interval) || Straddles(c.v, s.v, interval))
  }

  /** The `contour` raster: the cell function over the interior, then the
      configured colour for a 0xff cell and the fallback for a 0 cell. */
  function Contour(dem: Dem<Num>, interval: real, color: seq<int>, fallback: seq<int>): (out: Dem<seq<int>>)
    requires Valid(dem)
    ensures out.width == dem.width - 2 && out.height == dem.height - 2
    ensures |out.data| == InnerWidth(dem.width) * InnerWidth(dem.height)
  {
    var cells := Interior(dem, q => ContourCell(q, interval));
    Dem(seq(|cells.data|, i requires 0 <= i < |cells.data| => if cells.data[i] == 0 then fallback else color),
        cells.width, cells.height)
  }

  /** Output pixel (x, y) is the configured colour where input cell
      (x + 1, y + 1) lies on a contour and the fallback elsewhere. */
  lemma ContourPixel(dem: Dem<Num>, interval: real, color: seq<int>, fallback: seq<int>, x: int, y: int)
    requires Valid(dem) && interval > 0.0 && 0 <= x < dem.width - 2 && 0 <= y < dem.height - 2
    ensures Valid(Contour(dem, interval, color, fallback))
    ensures Cell(Contour(dem, interval, color, fallback), x, y) ==
            if ContourAt(dem, x + 1, y + 1, interval) then color else fallback
  {
    var f := q => ContourCell(q, interval);
    InteriorCell(dem, f, x, y);
    var q := Window(dem, x + 1, y + 1);
    WindowCells(dem, x + 1, y + 1, 4);
    WindowCells(dem, x + 1, y + 1, 5);
    WindowCells(dem, x + 1, y + 1, 7);
    assert q.c == Cell(dem, x + 1, y + 1) && q.e == Cell(dem, x + 2, y + 1) && q.s == Cell(dem, x + 1, y + 2);
    if q.c.Val? && q.e.Val? {
      BandsDifferIffStraddles(q.c.v, q.e.v, interval);
    }
    if q.c.Val? && q.s.Val? {
      BandsDifferIffStraddles(q.c.v, q.s.v, interval);
    }
    var cells := Interior(dem, f);
    CellInRange(cells.width, cells.height, x, y);
  }

  // ----- parameters -----

  /** `parseColors(param) || parseColors(default)` with the intended parser
      (the code as written is `RampParamAsWritten`); a missing parameter is
      `null`, whose text "null" is not a ramp. */
  function RampParam(param: Option<string>, default: string): (table: Option<seq<seq<int>>>)
    ensures table.Some? <==> (param.Some? && ParseColors(param.value).Some?) || ParseColors(default).Some?
    ensures table.Some? ==> |table.value| == 256 && AreColors(table.value)
  {
    if param.Some? && ParseColors(param.value).Some? then ParseColors(param.value) else ParseColors(default)
  }

  /** `parseColor(param) || parseColor(default)`. */
  function ColorParam(param: Option<string>, default: string): (color: Option<seq<int>>)
    ensures color.Some? <==> (param.Some? && ParseColor(param.value).Some?) || ParseColor(default).Some?
    ensures color.Some? ==> IsColor(color.value)
  {
    if param.Some? && ParseColor(param.value).Some? then ParseColor(param.value) else ParseColor(default)
  }

  /** `parseColors(param) || parseColors(default)` with the parser as written:
      a `null` from the parameter selects the default, a table is taken as it
      is, and a throw from either call fails the whole transform. */
  function RampParamAsWritten(param: Option<string>, default: string): (r: RampOutcome)
    ensures r.Null? <==> (param.None? || !RampPattern(Split(param.value, '-'))) && !RampPattern(Split(default, '-'))
    ensures r.Thrown? ==> (param.Some? && !AllColors(Split(param.value, '-'))) || !AllColors(Split(default, '-'))
  {
    if param.Some? && !ParseColorsAsWritten(param.value).Null? then ParseColorsAsWritten(param.value)
    else ParseColorsAsWritten(default)
  }

  /** For two-stop texts (every default ramp among them) the parameter as
      written selects the same table as the intended reading. */
  lemma RampParamAsWrittenOnTwoStops(param: Option<string>, default: string)
    requires ParseColors(default).Some? && |Split(default, '-')| == 2
    requires param.Some? ==>
               || ParseColorsAsWritten(param.value).Null?
               || (ParseColors(param.value).Some? && |Split(param.value, '-')| == 2)
    ensures RampParam(param, default).Some?
    ensures RampParamAsWritten(param, default) == Built(Lift(RampParam(param, default).value))
  {
    AsWrittenAgreesOnTwoStops(default);
    if param.Some? && !ParseColorsAsWritten(param.value).Null? {
      AsWrittenAgreesOnTwoStops(param.value);
    }
  }

  /** The ramp parameter "fffff-000" has a five-digit piece: the intended
      reading falls back to the default ramp, the code as written fails. */
  lemma FiveDigitRampParamFails(default: string)
    ensures RampParam(Some("fffff" + "-" + "000"), default) == ParseColors(default)
    ensures RampParamAsWritten(Some("fffff" + "-" + "000"), default) == Thrown
  {
    FiveDigitPieceThrows();
  }

  const TransparentFallback: string := "00000000"
  const ContourColor: string := "ffffff"

  /** With a well-formed default, the ramp parameter always yields a
      256-entry table, and an unusable parameter selects the default. */
  lemma RampParamUsable(param: Option<string>, default: string)
    requires ParseColors(default).Some?
    ensures RampParam(param, default).Some? && |RampParam(param, default).value| == 256
    ensures (param.None? || ParseColors(param.value).None?) ==> RampParam(param, default) == ParseColors(default)
  {
    var table := ParseColors(default).value;
    assert |table| == 256;
    if param.Some? && ParseColors(param.value).Some? {
      assert |ParseColors(param.value).value| == 256;
    }
  }

  /** With a well-formed default, the colour parameter always yields a colour. */
  lemma ColorParamUsable(param: Option<string>, default: string)
    requires ParseColor(default).Some?
    ensures ColorParam(param, default).Some? && IsColor(ColorParam(param, default).value)
    ensures (param.None? || ParseColor(param.value).None?) ==> ColorParam(param, default) == ParseColor(default)
  {
  }

  /** The default fallback is transparent black and the default contour colour opaque white. */
  lemma DefaultColors()
    ensures ParseColor(TransparentFallback) == Some([0, 0, 0, 0])
    ensures ParseColor(ContourColor) == Some([255, 255, 255, 255])
  {
    BlackAndWhite();
    assert ParseColor(TransparentFallback) == Some([0, 0, 0, 0]);
  }

  /** The default bounds of the transforms: `low`, `high`. */
  const ElevationBounds: (real, real) := (0.0, 4000.0)
  const SlopeBounds: (real, real) := (0.0, 90.0)
  const CurvatureBounds: (real, real) := (-90.0, 90.0)
  const ShadeBounds: (real, real) := (0.0, 90.0)

  /** A ramp table parsed from any well-formed text renders every in-ramp paint. */
  lemma RenderWithRamp(paints: seq<Paint>, ramp: string, fallback: seq<int>)
    requires InRamp(paints) && ParseColors(ramp).Some?
    ensures Render(paints, ParseColors(ramp).value, fallback).Some?
  {
    RenderInRamp(paints, ParseColors(ramp).value, fallback);
  }

  /** Under the default parameters every pixel of every ramp transform is
      written: the default bounds differ, so each index is in the 256-entry table. */
  lemma DefaultElevationRenders(image: seq<Pixel>)
    ensures ParseColors(GreyRamp).Some? && Render(Elevation(image, 1.0, ElevationBounds.0, ElevationBounds.1), ParseColors(GreyRamp).value, [0, 0, 0, 0]).Some?
  {
    DefaultRampsParse();
    RenderWithRamp(Elevation(image, 1.0, ElevationBounds.0, ElevationBounds.1), GreyRamp, [0, 0, 0, 0]);
  }

  lemma DefaultSlopeRenders(dem: Dem<Num>, degree: (real, real) -> real)
    requires Valid(dem)
    ensures ParseColors(InvertedGreyRamp).Some? && Render(SlopeImage(dem, 1.0, SlopeBounds.0, SlopeBounds.1, degree).data, ParseColors(InvertedGreyRamp).value, [0, 0, 0, 0]).Some?
  {
    DefaultRampsParse();
    RenderWithRamp(SlopeImage(dem, 1.0, SlopeBounds.0, SlopeBounds.1, degree).data, InvertedGreyRamp, [0, 0, 0, 0]);
  }

  lemma DefaultCurvatureRenders(dem: Dem<Num>, degree: real -> real)
    requires Valid(dem)
    ensures ParseColors(GreyRamp).Some? && Render(CurvatureImage(dem, 1.0, CurvatureBounds.0, CurvatureBounds.1, degree).data, ParseColors(GreyRamp).value, [0, 0, 0, 0]).Some?
  {
    DefaultRampsParse();
    RenderWithRamp(CurvatureImage(dem, 1.0, CurvatureBounds.0, CurvatureBounds.1, degree).data, GreyRamp, [0, 0, 0, 0]);
  }

  lemma DefaultShadeRenders(dem: Dem<Num>, shade: (real, real) -> real)
    requires Valid(dem)
    ensures ParseColors(ShadeRamp).Some? && Render(ShadeImage(dem, 1.0, ShadeBounds.0, ShadeBounds.1, shade).data, ParseColors(ShadeRamp).value, [0, 0, 0, 0]).Some?
  {
    DefaultRampsParse();
    RenderWithRamp(ShadeImage(dem, 1.0, ShadeBounds.0, ShadeBounds.1, shade).data, ShadeRamp, [0, 0, 0, 0]);
  }
}

=== FILE: translate.dfy ===
/** `translate(url, dx, dy)` of lib/util.js: the address of the neighbouring
    tile. The query and fragment are dropped, the text must end in
    `/<z>/<x>/<y>.png` with decimal `x` and `y` (here `base` stands for
    everything before `/<x>`), and the result is the same base with
    `x + dx` and `y + dy`. URLs are modelled by their text. */
module Translate {
  import opened Common

  predicate IsLineTerminator(c: char) {
    c == '\n' || c == '\r' || c == '\U{2028}' || c == '\U{2029}'
  }

  /** No character that the regular-expression dot refuses. */
  predicate SingleLine(s: string) {
    forall i :: 0 <= i < |s| ==> !IsLineTerminator(s[i])
  }

  predicate IsDigit(c: char) {
    '0' <= c <= '9'
  }

  predicate AllDigits(s: string) {
    forall i :: 0 <= i < |s| ==> IsDigit(s[i])
  }

  /** `replace(/[?#].*$/, "")`: cut at the leftmost `?` or `#` from which
      the dot can reach the end of the text. */
  function StripQuery(s: string): (u: string)
    ensures |u| <= |s| && u == s[..|u|]
    ensures |u| < |s| ==> (s[|u|] == '?' || s[|u|] == '#') && SingleLine(s[|u| + 1..])
  {
    if |s| == 0 then ""
    else if (s[0] == '?' || s[0] == '#') && SingleLine(s[1..]) then ""
    else
      var rest := StripQuery(s[1..]);
      assert s[1..][..|rest|] == s[1..|rest| + 1];
      [s[0]] + rest
  }

  /** No `?` and no `#`. */
  predicate NoQuery(s: string) {
    forall i :: 0 <= i < |s| ==> s[i] != '?' && s[i] != '#'
  }

  /** Text without `?` and `#` is kept whole, and a query or fragment after it
      is dropped. */
  lemma {:induction false} StripQueryOf(p: string, q: string)
    requires NoQuery(p)
    requires |q| == 0 || ((q[0] == '?' || q[0] == '#') && SingleLine(q[1..]))
    ensures StripQuery(p + q) == p
    decreases |p|
  {
    if |p| == 0 {
      assert p + q == q;
    } else {
      assert (p + q)[1..] == p[1..] + q;
      StripQueryOf(p[1..], q);
      assert [p[0]] + p[1..] == p;
    }
  }

  /** Index of the last `/`, or -1. */
  function LastSlash(s: string): (j: int)
    ensures -1 <= j < |s|
    ensures j >= 0 ==> s[j] == '/'
    ensures forall k :: j < k < |s| ==> s[k] != '/'
  {
    if |s| == 0 then -1
    else if s[|s| - 1] == '/' then |s| - 1
    else LastSlash(s[..|s| - 1])
  }

  lemma {:induction false} LastSlashOf(a: string, b: string)
    requires forall k :: 0 <= k < |b| ==> b[k] != '/'
    ensures LastSlash(a + "/" + b) == |a|
    decreases |b|
  {
    var s := a + "/" + b;
    if |b| > 0 {
      assert s[..|s| - 1] == a + "/" + b[..|b| - 1];
      assert s[|s| - 1] == b[|b| - 1];
      LastSlashOf(a, b[..|b| - 1]);
    }
  }

  /** The three captures of `^(.+)\/([0-9]+)\/([0-9]+)\.png$`. */
  datatype TilePath = TilePath(base: string, x: string, y: string)

  function TileText(t: TilePath): string {
    t.base + "/" + t.x + "/" + t.y + ".png"
  }

  predicate WellFormed(t: TilePath) {
    |t.base| > 0 && SingleLine(t.base) && |t.x| > 0 && AllDigits(t.x) && |t.y| > 0 && AllDigits(t.y)
  }

  /** The match: the digits after the last slash and between the last two
      slashes, followed by ".png" at the very end, and a non-empty single-line
      base. Since neither digit group can hold a slash, this split is the
      only one the pattern can make. */
  function MatchTile(u: string): (m: Option<TilePath>)
    ensures m.Some? ==> WellFormed(m.value)
  {
    if |u| < 4 || u[|u| - 4..] != ".png" then None
    else
      var v := u[..|u| - 4];
      var j := LastSlash(v);
      if j < 0 then None
      else
        var w := v[..j];
        var i := LastSlash(w);
        if i < 0 then None
        else
          var t := TilePath(w[..i], w[i + 1..], v[j + 1..]);
          if WellFormed(t) then Some(t) else None
  }

  /** A match spells out the text it was made from. */
  lemma MatchTileSound(u: string)
    requires MatchTile(u).Some?
    ensures TileText(MatchTile(u).value) == u
  {
    var v := u[..|u| - 4];
    var j := LastSlash(v);
    var w := v[..j];
    var i := LastSlash(w);
    var t := MatchTile(u).value;
    assert v == w + "/" + t.y;
    assert w == t.base + "/" + t.x;
    assert u == v + ".png";
  }

  /** Every well-formed tile address is matched, with its own captures. */
  lemma MatchTileComplete(t: TilePath)
    requires WellFormed(t)
    ensures MatchTile(TileText(t)) == Some(t)
  {
    var u := TileText(t);
    var w := t.base + "/" + t.x;
    var v := w + "/" + t.y;
    assert u == v + ".png";
    assert u[..|u| - 4] == v && u[|u| - 4..] == ".png";
    LastSlashOf(w, t.y);
    assert v[..|w|] == w && v[|w| + 1..] == t.y;
    LastSlashOf(t.base, t.x);
    assert w[..|t.base|] == t.base && w[|t.base| + 1..] == t.x;
  }

  function DigitValue(c: char): int
    requires IsDigit(c)
  {
    c as int - '0' as int
  }

  function DigitChar(n: int): (c: char)
    requires 0 <= n < 10
    ensures IsDigit(c) && DigitValue(c) == n
  {
    ('0' as int + n) as char
  }

  /** `parseInt` of a string of decimal digits. */
  function ParseDigits(s: string): nat
    requires AllDigits(s)
  {
    if |s| == 0 then 0 else ParseDigits(s[..|s| - 1]) * 10 + DigitValue(s[|s| - 1])
  }

  /** The decimal spelling of a natural number, without leading zeros. */
  function NatToString(n: nat): (s: string)
    ensures |s| > 0 && AllDigits(s)
  {
    if n < 10 then [DigitChar(n)] else NatToString(n / 10) + [DigitChar(n % 10)]
  }

  /** The decimal spelling reads back as the number. */
  lemma {:induction false} ParseNatToString(n: nat)
    ensures ParseDigits(NatToString(n)) == n
  {
    var s := NatToString(n);
    if n >= 10 {
      assert s[..|s| - 1] == NatToString(n / 10);
      ParseNatToString(n / 10);
    }
  }

  /** Template-literal spelling of an integer. */
  function IntToString(n: int): string {
    if n >= 0 then NatToString(n) else "-" + NatToString(-n)
  }

  /** The neighbour `translate` builds: the base it keeps and the moved
      coordinates. */
  datatype Target = Target(base: string, x: int, y: int)

  /** The template `${base}/${x}/${y}.png` handed to `new URL`. */
  function Href(n: Target): string {
    n.base + "/" + IntToString(n.x) + "/" + IntToString(n.y) + ".png"
  }

  /** The neighbour `dx` tiles across and `dy` down, whose address is
      `Href(r.value)`, or `None` where the source throws "Not a dempng". */
  function Translate(url: string, dx: int, dy: int): (r: Option<Target>)
    ensures r.None? <==> MatchTile(StripQuery(url)).None?
    ensures r.Some? ==> r.value.base == MatchTile(StripQuery(url)).value.base
  {
    match MatchTile(StripQuery(url))
    case None => None
    case Some(t) => Some(Target(t.base, ParseDigits(t.x) + dx, ParseDigits(t.y) + dy))
  }

  /** A tile address, with any query or fragment, moves by the offsets: the
      base is kept, the coordinates become `x + dx` and `y + dy`. */
  lemma TranslateTile(base: string, x: nat, y: nat, q: string, dx: int, dy: int)
    requires |base| > 0 && SingleLine(base) && NoQuery(base)
    requires |q| == 0 || ((q[0] == '?' || q[0] == '#') && SingleLine(q[1..]))
    ensures Translate(TileText(TilePath(base, NatToString(x), NatToString(y))) + q, dx, dy)
            == Some(Target(base, x + dx, y + dy))
  {
    ParseNatToString(x);
    ParseNatToString(y);
    TranslateDigits(base, NatToString(x), NatToString(y), x, y, q, dx, dy);
  }

  /** The same for any digit captures, read as the numbers `x` and `y`. */
  lemma TranslateDigits(base: string, xs: string, ys: string, x: int, y: int, q: string, dx: int, dy: int)
    requires WellFormed(TilePath(base, xs, ys)) && NoQuery(base)
    requires |q| == 0 || ((q[0] == '?' || q[0] == '#') && SingleLine(q[1..]))
    requires ParseDigits(xs) == x && ParseDigits(ys) == y
    ensures Translate(TileText(TilePath(base, xs, ys)) + q, dx, dy) == Some(Target(base, x + dx, y + dy))
  {
    MatchWithQuery(TilePath(base, xs, ys), q);
    TranslateMatched(TileText(TilePath(base, xs, ys)) + q, base, xs, ys, x, y, dx, dy);
  }

  lemma TranslateMatched(u: string, base: string, xs: string, ys: string, x: int, y: int, dx: int, dy: int)
    requires MatchTile(StripQuery(u)) == Some(TilePath(base, xs, ys))
    requires ParseDigits(xs) == x && ParseDigits(ys) == y
    ensures Translate(u, dx, dy) == Some(Target(base, x + dx, y + dy))
  {
  }

  lemma MatchWithQuery(t: TilePath, q: string)
    requires WellFormed(t) && NoQuery(t.base)
    requires |q| == 0 || ((q[0] == '?' || q[0] == '#') && SingleLine(q[1..]))
    ensures MatchTile(StripQuery(TileText(t) + q)) == Some(t)
  {
    TileTextNoQuery(t);
    StripQueryOf(TileText(t), q);
    MatchTileComplete(t);
  }

  lemma TileTextNoQuery(t: TilePath)
    requires WellFormed(t) && NoQuery(t.base)
    ensures NoQuery(TileText(t))
  {
    assert NoQuery(t.x) && NoQuery(t.y);
  }

  /** `translate` succeeds exactly on the text that, query and fragment
      removed, spells a well-formed tile address. */
  lemma TranslateDefined(url: string, dx: int, dy: int)
    ensures Translate(url, dx, dy).Some? <==>
            exists t :: WellFormed(t) && TileText(t) == StripQuery(url)
  {
    var s := StripQuery(url);
    if exists t :: WellFormed(t) && TileText(t) == s {
      var t :| WellFormed(t) && TileText(t) == s;
      MatchTileComplete(t);
    }
    if MatchTile(s).Some? {
      MatchTileSound(s);
      assert WellFormed(MatchTile(s).value) && TileText(MatchTile(s).value) == s;
    }
  }

  /** For natural coordinates the template spells a tile address. */
  lemma HrefIsTile(n: Target)
    requires n.x >= 0 && n.y >= 0
    ensures Href(n) == TileText(TilePath(n.base, NatToString(n.x), NatToString(n.y))) + ""
  {
  }

  /** An address the template built moves by the offsets. */
  lemma TranslateHref(n: Target, dx: int, dy: int)
    requires |n.base| > 0 && SingleLine(n.base) && NoQuery(n.base)
    requires n.x >= 0 && n.y >= 0
    ensures Translate(Href(n), dx, dy) == Some(Target(n.base, n.x + dx, n.y + dy))
  {
    HrefIsTile(n);
    TranslateTile(n.base, n.x, n.y, "", dx, dy);
  }

  /** Moving by one pair of offsets and then by another is moving by their
      sum, as long as the intermediate coordinates are not negative. (A URL's
      text never holds a line break.) */
  lemma TranslateCompose(url: string, dx: int, dy: int, ex: int, ey: int)
    requires SingleLine(url)
    requires Translate(url, dx, dy).Some?
    requires Translate(url, dx, dy).value.x >= 0 && Translate(url, dx, dy).value.y >= 0
    ensures Translate(Href(Translate(url, dx, dy).value), ex, ey) == Translate(url, dx + ex, dy + ey)
  {
    MatchedBaseNoQuery(url);
    TranslateHref(Translate(url, dx, dy).value, ex, ey);
  }

  /** Moving to a neighbour and back lands on the tile `translate(url, 0, 0)`
      names. */
  lemma TranslateBack(url: string, dx: int, dy: int)
    requires SingleLine(url)
    requires Translate(url, dx, dy).Some?
    requires Translate(url, dx, dy).value.x >= 0 && Translate(url, dx, dy).value.y >= 0
    ensures Translate(Href(Translate(url, dx, dy).value), -dx, -dy) == Translate(url, 0, 0)
  {
    TranslateCompose(url, dx, dy, -dx, -dy);
  }

  /** The base of a match in single-line text holds no `?` or `#`. */
  lemma MatchedBaseNoQuery(url: string)
    requires SingleLine(url) && MatchTile(StripQuery(url)).Some?
    ensures NoQuery(MatchTile(StripQuery(url)).value.base)
  {
    var s := StripQuery(url);
    var t := MatchTile(s).value;
    StrippedNoQuery(url);
    MatchTileSound(s);
    forall i | 0 <= i < |t.base|
      ensures t.base[i] != '?' && t.base[i] != '#'
    {
      assert TileText(t)[i] == t.base[i];
    }
  }

  /** Single-line text loses everything from its first `?` or `#`. */
  lemma {:induction false} StrippedNoQuery(s: string)
    requires SingleLine(s)
    ensures NoQuery(StripQuery(s))
    decreases |s|
  {
    if |s| > 0 {
      assert SingleLine(s[1..]);
      StrippedNoQuery(s[1..]);
    }
  }
}
